=== FILE: README.md ===
# Weather analytics core, modelled in Dafny

This project models the analytics part of `weather_utils.py`, a small
temperature-monitoring module. The module works on a historical table of
observations, one row per city, timestamp, temperature and season label.
The model covers four operations:

- `analyze_city` turns one city's rows into a statistics record. It sorts
  the rows by timestamp. It flags observations that lie more than two rolling
  standard deviations from a trailing 30-observation rolling mean. It builds a
  per-season (mean, std) profile. It classifies the least-squares trend of
  temperature against whole days since the first observation as positive or
  negative. It also records the average, minimum and maximum temperature.
- `sequential_analyze` splits the table by distinct city and analyses each
  city on its own.
- `determine_current_season` maps a month to a meteorological season.
- `is_temperature_normal` checks whether a live reading is within two
  standard deviations of the season's mean in a city's profile.

Modules, one per concern:

- `Stats`: sums, means, sample variance (as `Option`, missing below two
  values), minimum, maximum, and Samuelson's bound on a value's distance from
  its sample mean.
- `Weather`: the records.
- `TimeSort`: the sort by timestamp.
- `Rolling`: rolling windows and anomaly flags.
- `Seasonal`: the seasonal profile.
- `Regression`: day numbers and the sign of the least-squares slope.
- `Analysis`: `analyze_city`.
- `Sequential`: `sequential_analyze`.
- `Normality`: `determine_current_season` and `is_temperature_normal`.
- `Examples`: concrete boundary cases.

Modelling choices:

- Temperatures are exact `real`s. Timestamps are integer seconds.
- A day number is the floor of (timestamp − earliest timestamp) / 86400.
- Standard deviations never appear directly; the model carries variances.
  A comparison `|d| > 2·std` is stated as `d² > 4·variance`. The lemmas
  `Rolling.AnomalyIsTwoDeviations` and `Normality.NormalIsWithinTwoDeviations`
  connect the two forms for any `sd >= 0` with `sd² = variance`.
- Both deviations are pandas' default `std()`, the sample deviation with
  denominator N − 1 (`weather_utils.py:17`, `24-27`). The lemmas
  `Rolling.RollingUsesSampleDeviation` and
  `Examples.NormalityUsesSampleDeviation` give readings whose verdict
  would differ with the population deviation.
- A rolling window of one observation has a missing deviation, which the
  code replaces by 0 (`weather_utils.py:17`).
- A seasonal deviation is not filled. A season with one observation
  therefore has a missing (NaN) deviation, modelled as `None`. Every
  comparison with NaN is false, so `is_temperature_normal` returns false
  for that season.
- Profile rows come in the order a group-by over the season label emits
  them, which is alphabetical: autumn, spring, summer, winter.
- The trend is decided by the least-squares slope computed in closed form.
  A zero denominator, where all day numbers are equal, gives slope 0 and
  so "negative".
- The pandas sort is not stable. `Analysis.AnalyzeSorted` therefore takes
  any time-ordered arrangement of the rows. `Analysis.AnalyzeCity` uses one
  such arrangement: the insertion sort `TimeSort.SortByTime`, which is proved
  to be a sorted permutation.

Boundary behaviour of the code that the model states as lemmas:

- A season with a single observation has a NaN deviation in the profile
  (`weather_utils.py:24-27`), because nothing fills it in. Every comparison
  with NaN is false, so `is_temperature_normal` answers false for every
  reading in that season: `Normality.SingleObservationSeasonNeverNormal`
  for a time-ordered table, and `Normality.OnceObservedSeasonNeverNormal`
  for the rows in any order.
- The rolling window includes the current value and uses the sample
  deviation (`weather_utils.py:16-20`). By Samuelson's inequality, a window
  of at most five values never lies more than two sample deviations from its
  own mean at its last value, so none of the first five observations can be
  flagged: `Rolling.EarlyObservationsNeverFlagged`. The readings 10, 10, 50
  on three consecutive days therefore flag nothing: `Examples.ThreeDayCity`.
  `Rolling.SixthObservationCanBeFlagged` shows that the bound of five is
  tight.

## Model

| member | source | states |
|---|---|---|
| Analysis.AnalyzeCity | weather_utils.py:10-15 | Defined for every city with at least one observation, with its rows in any order; the record carries that city's name. |
| Analysis.AnalyzeSorted | weather_utils.py:10-21 | On any time-ordered arrangement of the rows, the record names the city and reports no more anomalies than there are observations. |
| Analysis.SummaryBounds | weather_utils.py:39-41 | min_temp ≤ average_temp ≤ max_temp. Every temperature lies between min and max, and both are temperatures that were actually observed. |
| Analysis.SummaryIgnoresRowOrder | weather_utils.py:39-41 | Average, minimum and maximum equal those of the rows in their original order, so sorting does not change them. |
| Analysis.AnomaliesAreChronologicalSubsequence | weather_utils.py:15-21 | The anomalies are the flagged observations of the sorted table, each kept as its own (timestamp, temperature) pair. They come from strictly increasing positions and include exactly the flagged ones, so they are in chronological order. |
| Analysis.AnomaliesInTimeOrder | weather_utils.py:15-21 | On a time-ordered table, the reported anomalies have non-decreasing timestamps. |
| Analysis.NoAnomalyAmongFirstFive | weather_utils.py:16-21 | No observation among the first five in time is reported, so a city with at most five observations has no anomalies. |
| Analysis.RecordAnomalies | weather_utils.py:15-21 | The record's anomaly list pairs one-to-one, in order, with the flagged positions of the sorted table. Each entry is the observation at its position, and a position is listed iff that observation is anomalous. The entries have non-decreasing timestamps, none comes from the first five positions, and a city with at most five observations has none. |
| Analysis.RecordTrend | weather_utils.py:30-36 | On a time-ordered arrangement, the record's trend is positive iff the covariance numerator Σ(x−x̄)(y−ȳ) of day number against temperature is > 0. |
| Analysis.CityTrendPositiveIff | weather_utils.py:15-36 | For rows in any order, the trend is positive iff that numerator is > 0, computed over the time-sorted rows. |
| Analysis.CityTrendIgnoresRowOrder | weather_utils.py:15-36 | The trend is the one computed on the rows in their input order, and it is positive iff the numerator over the input order is > 0. |
| Analysis.NumeratorIgnoresRowOrder | weather_utils.py:30-36 | Any rearrangement of the rows leaves the covariance numerator unchanged. |
| Analysis.CityConstantTemperaturesNegative | weather_utils.py:30-36 | A city whose rows, in any order, all have the same temperature has a negative trend. |
| Analysis.CitySameDayNegative | weather_utils.py:30-36 | A city whose observations, in any order, all lie less than a day apart has a negative trend. |
| Analysis.SameDayCityTrend | weather_utils.py:30-36 | The same, for the trend computed on the rows in their input order. |
| Analysis.CitySingleObservationNegative | weather_utils.py:30-36 | A city with one observation has a negative trend. |
| Regression.EarliestIgnoresRowOrder | weather_utils.py:30 | Any rearrangement of the rows has the same earliest timestamp. |
| Regression.SumOfDays | weather_utils.py:30-36 | The sum of the day numbers is the sum, over the rows, of each row's day count. |
| Regression.CrossAsRowSum | weather_utils.py:33-36 | The numerator Σ(x−x̄)(y−ȳ) is a sum of one term per row, so it can be regrouped row by row. |
| Analysis.ProfileSeasonsOfCity | weather_utils.py:15-27 | The city's profile has a row for a season exactly when one of the city's observations carries that season, whatever the row order. |
| TimeSort.SortByTime | weather_utils.py:15 | The result has as many rows as the input and is ordered by non-decreasing timestamp. |
| TimeSort.SortByTimePermutes | weather_utils.py:15 | The sorted rows are a permutation (same multiset) of the input rows. |
| TimeSort.SortSortedIsIdentity | weather_utils.py:15 | A table that is already time-ordered is left unchanged. |
| Rolling.Window | weather_utils.py:16-17 | The window at position i holds the observation itself and the up to 29 before it, in order: i+1 values before position 30, and 30 from then on. |
| Rolling.AnomalyPositionsExact | weather_utils.py:20-21 | The flagged positions are in range and strictly increasing. A position is listed exactly when its observation is anomalous. |
| Rolling.PositionsBelowExact | weather_utils.py:21 | The positions collected below k are exactly those where the flag holds. |
| Rolling.AnomalyIsTwoDeviations | weather_utils.py:20 | For any sd ≥ 0 whose square is the rolling variance, an observation is flagged iff \|t − rolling mean\| > 2·sd, a strict comparison. |
| Rolling.EarlyObservationsNeverFlagged | weather_utils.py:16-20 | None of the first five observations can be flagged, the first one in particular, whatever the temperatures. |
| Rolling.FlaggedFromSixth | weather_utils.py:16-21 | Every flagged position is at least 5, that is, from the sixth observation on. |
| Rolling.SixthObservationCanBeFlagged | weather_utils.py:16-20 | In the series 0, 0, 0, 0, 0, 1 the sixth observation is flagged, so the bound of five cannot be raised. |
| Rolling.RollingUsesSampleDeviation | weather_utils.py:16-20 | The rolling deviation divides by N − 1: in the series 0, 0, 0, 0, −1, 3 the rolling mean at the sixth observation is 1/3 and the variance 28/15, so it is not flagged, although it lies more than two population deviations from the mean. |
| Stats.SampleVariance | weather_utils.py:24-27 | The sample variance is present exactly when there are at least two values, and is missing (NaN) otherwise. Its N − 1 denominator is fixed by the examples Rolling.RollingUsesSampleDeviation, Examples.ThreeDayCity and Examples.NormalityUsesSampleDeviation. |
| Stats.SampleVarianceNonNegative | weather_utils.py:24-27 | A present sample variance is never negative. |
| Stats.MeanWithinRange | weather_utils.py:39-41 | The mean of a non-empty series lies between its minimum and its maximum. |
| Stats.ExtremaAttained | weather_utils.py:40-41 | The minimum and the maximum are values of the series. |
| Stats.SmallSampleWithinTwoDeviations | weather_utils.py:16-20 | In a sample of at most five values, the last value is never more than two sample standard deviations from the mean. |
| Seasonal.GroupRow | weather_utils.py:24-27 | A season gets at most one group row, and it gets one exactly when it has temperatures. The row carries that season. |
| Seasonal.SeasonsPartition | weather_utils.py:24 | The four seasons' temperature lists, taken together as a multiset, are exactly the multiset of all the observations' temperatures, so each observation is counted in exactly one season; their lengths add up to the number of observations. |
| Seasonal.PartitionStep | weather_utils.py:24 | The four-season multiset partition of the rows after the first extends to the whole table. |
| Seasonal.SeasonTempsConsMultiset | weather_utils.py:24 | Adding one observation in front adds its temperature to its own season's temperatures and leaves every other season's unchanged. |
| Seasonal.ProfileCoversObservedSeasons | weather_utils.py:24-27 | The profile has a row for a season iff some observation carries that season. |
| Seasonal.ProfileOrderedBySeasonLabel | weather_utils.py:24-27 | Rows come in strictly increasing label order (autumn, spring, summer, winter), so no season has two rows. |
| Seasonal.ProfileRowStatistics | weather_utils.py:24-27 | Each row's mean is the arithmetic mean of its season's temperatures and lies between their minimum and maximum. Its variance is the sample variance of those temperatures: missing iff the season has one observation, and otherwise non-negative. |
| Seasonal.SeasonStatisticsIgnoreRowOrder | weather_utils.py:15-27 | Rearranging the rows leaves each season's count, mean and sample variance unchanged. |
| Regression.Earliest | weather_utils.py:30 | The reference time is at or before every timestamp and is the timestamp of some observation. |
| Regression.DayNumberCountsWholeDays | weather_utils.py:30 | A day number is the count of whole 86400-second days since the earliest timestamp. It is non-negative, and 0 exactly within the first day. |
| Regression.DayNumbersFacts | weather_utils.py:30 | Day numbers are non-negative and 0 for the earliest observation, and they are non-decreasing along a time-ordered table. |
| Regression.TrendPositiveIff | weather_utils.py:33-36 | The trend is positive iff the least-squares slope is > 0, which holds iff the covariance numerator Σ(x−x̄)(y−ȳ) is > 0. |
| Regression.SlopeOfExactLine | weather_utils.py:33-36 | On data lying exactly on y = a + b·x with day numbers that are not all equal, the computed slope is b, so the trend is positive iff b > 0. |
| Regression.ConstantTemperaturesNegative | weather_utils.py:30-36 | A city whose temperatures are all equal has a negative trend. |
| Regression.SameDayNegative | weather_utils.py:30-36 | A city whose observations all fall within the first day has a negative trend, because the slope is 0. |
| Regression.SingleObservationNegative | weather_utils.py:30-36 | A city with a single observation has a negative trend. |
| Sequential.Cities | weather_utils.py:51 | The listed cities are pairwise distinct. |
| Sequential.CitiesMembership | weather_utils.py:51 | A city is listed iff some row of the table belongs to it. |
| Sequential.CitiesInFirstAppearanceOrder | weather_utils.py:51 | Cities are listed in order of first appearance: where a later-listed city occurs, every earlier-listed city has already occurred. |
| Sequential.RowsOfExact | weather_utils.py:54 | The rows analysed for a city are exactly the table's rows of that city. |
| Sequential.SequentialAnalyze | weather_utils.py:50-57 | There is one result per distinct city. |
| Sequential.SequentialAnalyzeAt | weather_utils.py:53-56 | The result at position j is the analysis of the non-empty rows of the j-th city, and its city field is that city. |
| Sequential.EmptyTableNoResults | weather_utils.py:50-57 | An empty table gives an empty result list. |
| Sequential.SequentialAnalyzeDisjoint | weather_utils.py:50-57 | Two tables with no city in common, analysed together, give the results of the first followed by those of the second. Each city's result depends only on its own rows. |
| Normality.SeasonIsQuarterOfYear | weather_utils.py:79-88 | Months 12, 1, 2 map to winter, 3–5 to spring, 6–8 to summer and 9–11 to autumn: the quarters of the year counted from December. Any other number maps to autumn, so the function is total. |
| Normality.ThreeMonthsPerSeason | weather_utils.py:79-88 | Each season covers exactly three calendar months. |
| Normality.FindProfileRowFirst | weather_utils.py:93-98 | The search finds nothing iff no row has the season. Otherwise it returns the first row with the season. |
| Normality.NormalWithoutProfileRow | weather_utils.py:98-99 | With no row for the season, every temperature is normal. |
| Normality.FirstMatchingRowDecides | weather_utils.py:93-97 | The first row for the season is the one used. Later rows for the same season are ignored. |
| Normality.NotNormalWithMissingDeviation | weather_utils.py:101 | When the matching row's deviation is missing (NaN), no temperature is normal. |
| Normality.NormalIsWithinTwoDeviations | weather_utils.py:92-101 | With a deviation sd ≥ 0 in the first matching row, a temperature is normal iff \|t − mean\| ≤ 2·sd, boundary included. |
| Normality.UnobservedSeasonAlwaysNormal | weather_utils.py:92-101 | For a season none of the city's observations carries, every temperature is normal. |
| Normality.SingleObservationSeasonNeverNormal | weather_utils.py:92-101 | For a season the city observed exactly once, no temperature is normal. |
| Normality.OnceObservedSeasonNeverNormal | weather_utils.py:92-101 | For a season the city observed exactly once, with its rows in any order, no temperature is normal. |
| Normality.CityProfileRow | weather_utils.py:24-27 | The row found for a season of a city, with its rows in any order, is absent when the season is unobserved and otherwise carries the mean and sample variance of that season's temperatures. |
| Normality.SeasonNormalityOfCity | weather_utils.py:92-101 | For a season the city observed at least twice, a reading t is normal iff (t − m)² ≤ 4·v, where m and v are the mean and sample variance of that season's temperatures. |
| Examples.NormalityBoundary | weather_utils.py:101 | With mean 10 and std 2, the readings 14 and 6 are normal and 14.5 is not. A season without a row accepts 100. |
| Examples.ThreeDayCity | weather_utils.py:10-43 | For the readings 10, 10, 50 on consecutive summer days: no anomalies, average 70/3, minimum 10, maximum 50, a positive trend, and a single summer profile row with mean 70/3 and sample variance 1600/3 (divided by N − 1 = 2). |
| Examples.NormalityUsesSampleDeviation | weather_utils.py:92-101 | For a city with summer readings 8 and 12 (mean 10, sample variance 8), the reading 14.5 is normal, although it lies more than two population deviations (variance 4) from the mean. |

## Left out

- `get_current_temperature_sync` (`weather_utils.py:64-75`) is an HTTP request to a weather service, with status 401 mapped to an error. Network I/O has no counterpart in this model.
- `InvalidAPIKeyError` (`weather_utils.py:6-7`) exists only to signal that failure.
- The Streamlit application (`streamlit_weather_app.py`) is presentation only: upload, charts and one city lookup.
- Floating-point rounding and NaN temperatures in the input are not modelled. Arithmetic is exact over `real`, and temperatures are always numbers.
- The record's output format (pandas `to_dict('records')`, dictionaries keyed by column name) is not modelled. It becomes the `CityStatistics`, `Anomaly` and `ProfileRow` datatypes.
- Season labels are one of the four values autumn, spring, summer and winter (the `Season` datatype). The source's season column is a free string, and other labels are not modelled.
- Dates become integer timestamps, and `determine_current_season` takes the month number rather than a date object.
- scikit-learn's regression is not modelled. Only the sign of the slope is used, and it comes from the closed-form least-squares formula.
- TimeSort.SortByTime: the result is a stable insertion sort. The order of rows with equal timestamps under pandas' unstable sort is unspecified, so the properties are stated for any time-ordered arrangement through `Analysis.AnalyzeSorted`.
- Rolling.RollingVariance: carries the square of the rolling deviation rather than the deviation. Square roots are not available on `real`, so comparisons with the deviation go through `Rolling.AnomalyIsTwoDeviations`.
- Analysis.AnalyzeCity: requires at least one row. For a city with no rows the source raises ValueError in `model.fit` (`weather_utils.py:34`). `sequential_analyze` never passes an empty table (`Sequential.SequentialAnalyzeAt`). Missing (NaN) city or timestamp values cannot be expressed in the model. In the source, a missing city selects no rows and a missing timestamp gives a NaN day number; both make `fit` raise (`weather_utils.py:30-34`, `51-55`).
- Normality.IsTemperatureNormal: compares squares against the stored variance rather than the deviation itself, for the same reason. `Normality.NormalIsWithinTwoDeviations` gives the deviation form.

=== FILE: analysis.dfy ===
/** The per-city analysis: sort the city's observations by time, flag
    rolling-window anomalies, build the seasonal profile, take the trend,
    and record the mean, minimum and maximum temperature. */
module Analysis {
  import opened Stats
  import opened Weather
  import opened TimeSort
  import opened Rolling
  import opened Seasonal
  import opened Regression

  /** The flagged observations of a time-ordered table, as (timestamp,
      temperature) pairs in table order. */
  function Anomalies(sorted: seq<Observation>): (a: seq<Anomaly>)
  {
    var idx := AnomalyPositions(Temperatures(sorted));
    seq(|idx|, j requires 0 <= j < |idx| => AsAnomaly(sorted[idx[j]]))
  }

  /** The statistics of one city, given its observations in an order that
      sorts them by timestamp. Observations with equal timestamps may come
      in any order, since the sort that produces them need not be stable. */
  function AnalyzeSorted(city: string, sorted: seq<Observation>): (r: CityStatistics)
    requires |sorted| > 0 && SortedByTime(sorted)
    ensures r.city == city
    ensures |r.anomalies| <= |sorted|
  {
    var temps := Temperatures(sorted);
    CityStatistics(
      city,
      Anomalies(sorted),
      SeasonalProfile(sorted),
      CityTrend(sorted),
      Mean(temps),
      Min(temps),
      Max(temps))
  }

  /** The analysis of one city's observations, in any order. */
  function AnalyzeCity(city: string, obs: seq<Observation>): (r: CityStatistics)
    requires |obs| > 0
    ensures r.city == city
  {
    AnalyzeSorted(city, SortByTime(obs))
  }

  /** The average lies between the extremes, which bound every temperature
      and are themselves observed temperatures. */
  lemma SummaryBounds(city: string, sorted: seq<Observation>)
    requires |sorted| > 0 && SortedByTime(sorted)
    ensures var r := AnalyzeSorted(city, sorted);
            && r.minTemp <= r.averageTemp <= r.maxTemp
            && (forall i :: 0 <= i < |sorted| ==> r.minTemp <= sorted[i].temperature <= r.maxTemp)
            && (exists i :: 0 <= i < |sorted| && sorted[i].temperature == r.minTemp)
            && (exists i :: 0 <= i < |sorted| && sorted[i].temperature == r.maxTemp)
  {
    var temps := Temperatures(sorted);
    MeanWithinRange(temps);
    ExtremaAttained(temps);
  }

  /** The anomalies are the flagged observations, each kept as its own
      (timestamp, temperature) pair, taken at strictly increasing positions
      of the time-ordered table and therefore in chronological order. */
  lemma AnomaliesAreChronologicalSubsequence(sorted: seq<Observation>)
    requires SortedByTime(sorted)
    ensures var a := Anomalies(sorted);
            var idx := AnomalyPositions(Temperatures(sorted));
            && |a| == |idx|
            && (forall j :: 0 <= j < |idx| ==> idx[j] < |sorted| && a[j] == AsAnomaly(sorted[idx[j]]))
            && (forall j, k :: 0 <= j < k < |idx| ==> idx[j] < idx[k])
            && (forall i :: 0 <= i < |sorted| ==> (i in idx <==> IsAnomaly(Temperatures(sorted), i)))
            && (forall j, k :: 0 <= j < k < |a| ==> a[j].timestamp <= a[k].timestamp)
  {
    var temps := Temperatures(sorted);
    var a := Anomalies(sorted);
    var idx := AnomalyPositions(temps);
    AnomaliesInTimeOrder(sorted);
    AnomalyPositionsExact(temps);
  }

  /** Anomalies are reported in chronological order. */
  lemma AnomaliesInTimeOrder(sorted: seq<Observation>)
    requires SortedByTime(sorted)
    ensures forall j, k :: 0 <= j < k < |Anomalies(sorted)| ==>
              Anomalies(sorted)[j].timestamp <= Anomalies(sorted)[k].timestamp
  {
    var a := Anomalies(sorted);
    var idx := AnomalyPositions(Temperatures(sorted));
    PositionsInTimeOrder(sorted, idx);
    forall j, k | 0 <= j < k < |a|
      ensures a[j].timestamp <= a[k].timestamp
    {
      assert a[j] == AsAnomaly(sorted[idx[j]]) && a[k] == AsAnomaly(sorted[idx[k]]);
    }
  }

  /** The first five observations in time are never reported as anomalies,
      so a city with at most five observations has none. */
  lemma NoAnomalyAmongFirstFive(sorted: seq<Observation>)
    requires SortedByTime(sorted)
    ensures forall j :: 0 <= j < |AnomalyPositions(Temperatures(sorted))| ==>
              AnomalyPositions(Temperatures(sorted))[j] >= 5
    ensures |sorted| <= 5 ==> Anomalies(sorted) == []
  {
    var temps := Temperatures(sorted);
    var idx := AnomalyPositions(temps);
    FlaggedFromSixth(temps);
    if |idx| > 0 {
      assert 5 <= idx[0] < |sorted|;
    }
    assert |Anomalies(sorted)| == |idx|;
  }

  /** The temperatures of a table, as a set of values, do not depend on
      the order of its rows. */
  lemma SameTemperatureValues(a: seq<Observation>, b: seq<Observation>)
    requires multiset(a) == multiset(b)
    ensures forall x :: x in Temperatures(a) <==> x in Temperatures(b)
  {
    forall x | x in Temperatures(a)
      ensures x in Temperatures(b)
    {
      var i :| 0 <= i < |a| && Temperatures(a)[i] == x;
      assert a[i] in multiset(b);
      var k :| 0 <= k < |b| && b[k] == a[i];
      assert Temperatures(b)[k] == x;
    }
    forall x | x in Temperatures(b)
      ensures x in Temperatures(a)
    {
      var i :| 0 <= i < |b| && Temperatures(b)[i] == x;
      assert b[i] in multiset(a);
      var k :| 0 <= k < |a| && a[k] == b[i];
      assert Temperatures(a)[k] == x;
    }
  }

  /** Inserting an observation adds its temperature to the total. */
  lemma {:induction false} SumInsert(o: Observation, s: seq<Observation>)
    requires SortedByTime(s)
    ensures Sum(Temperatures(Insert(o, s))) == o.temperature + Sum(Temperatures(s))
  {
    if |s| == 0 {
      assert Temperatures([o]) == [o.temperature] + [];
      SumFront(o.temperature, []);
    } else if o.timestamp < s[0].timestamp {
      assert Temperatures([o] + s) == [o.temperature] + Temperatures(s);
      SumFront(o.temperature, Temperatures(s));
    } else {
      var rest := Insert(o, s[1..]);
      assert Insert(o, s) == [s[0]] + rest;
      assert Temperatures([s[0]] + rest) == [s[0].temperature] + Temperatures(rest);
      assert Temperatures(s) == [s[0].temperature] + Temperatures(s[1..]);
      SumInsert(o, s[1..]);
      SumFront(s[0].temperature, Temperatures(rest));
      SumFront(s[0].temperature, Temperatures(s[1..]));
    }
  }

  /** Sorting does not change the total temperature. */
  lemma {:induction false} SumSorted(s: seq<Observation>)
    ensures Sum(Temperatures(SortByTime(s))) == Sum(Temperatures(s))
  {
    if |s| > 0 {
      var p := s[..|s| - 1];
      var t := Temperatures(s);
      assert SortByTime(s) == Insert(s[|s| - 1], SortByTime(p));
      SumSorted(p);
      SumInsert(s[|s| - 1], SortByTime(p));
      assert t[..|s| - 1] == Temperatures(p);
      assert Sum(t) == Sum(t[..|t| - 1]) + t[|t| - 1];
    }
  }

  /** Sorting a table keeps the mean, minimum and maximum of its
      temperatures. */
  lemma SortKeepsSummary(obs: seq<Observation>)
    requires |obs| > 0
    ensures var t := Temperatures(SortByTime(obs));
            && Mean(t) == Mean(Temperatures(obs))
            && Min(t) == Min(Temperatures(obs))
            && Max(t) == Max(Temperatures(obs))
  {
    var sorted := SortByTime(obs);
    SortByTimePermutes(obs);
    SumSorted(obs);
    SameTemperatureValues(sorted, obs);
    ExtremaOfSameValues(Temperatures(sorted), Temperatures(obs));
  }

  /** The average, minimum and maximum of a city are those of its
      observations in the order given: sorting does not affect them. */
  lemma SummaryIgnoresRowOrder(city: string, obs: seq<Observation>)
    requires |obs| > 0
    ensures var r := AnalyzeCity(city, obs);
            && r.averageTemp == Mean(Temperatures(obs))
            && r.minTemp == Min(Temperatures(obs))
            && r.maxTemp == Max(Temperatures(obs))
  {
    SortKeepsSummary(obs);
  }

  /** Sorting a table does not change which seasons it observes. */
  lemma SortKeepsSeasons(obs: seq<Observation>, s: Season)
    ensures Observed(SortByTime(obs), s) <==> Observed(obs, s)
  {
    var sorted := SortByTime(obs);
    SortByTimePermutes(obs);
    if Observed(obs, s) {
      var i :| 0 <= i < |obs| && obs[i].season == s;
      assert obs[i] in multiset(sorted);
      var k :| 0 <= k < |sorted| && sorted[k] == obs[i];
    }
    if Observed(sorted, s) {
      var i :| 0 <= i < |sorted| && sorted[i].season == s;
      assert sorted[i] in multiset(obs);
      var k :| 0 <= k < |obs| && obs[k] == sorted[i];
    }
  }

  /** The profile of a city has a row for a season exactly when some of the
      city's observations carry it, whatever their order. */
  lemma ProfileSeasonsOfCity(city: string, obs: seq<Observation>, s: Season)
    requires |obs| > 0
    ensures var p := AnalyzeCity(city, obs).seasonalProfile;
            (exists j :: 0 <= j < |p| && p[j].season == s) <==> Observed(obs, s)
  {
    ProfileCoversObservedSeasons(SortByTime(obs), s);
    SortKeepsSeasons(obs, s);
  }

  /** The record's anomalies are the flagged observations of the
      time-ordered table, as (timestamp, temperature) pairs: exactly the
      flagged positions, strictly increasing and never among the first
      five, so in chronological order, and none at all for a table of at
      most five rows. */
  lemma RecordAnomalies(city: string, sorted: seq<Observation>)
    requires |sorted| > 0 && SortedByTime(sorted)
    ensures var a := AnalyzeSorted(city, sorted).anomalies;
            var idx := AnomalyPositions(Temperatures(sorted));
            && |a| == |idx|
            && (forall j :: 0 <= j < |idx| ==> 5 <= idx[j] < |sorted| && a[j] == AsAnomaly(sorted[idx[j]]))
            && (forall j, k :: 0 <= j < k < |idx| ==> idx[j] < idx[k])
            && (forall i :: 0 <= i < |sorted| ==> (i in idx <==> IsAnomaly(Temperatures(sorted), i)))
            && (forall j, k :: 0 <= j < k < |a| ==> a[j].timestamp <= a[k].timestamp)
            && (|sorted| <= 5 ==> a == [])
  {
    AnomalyFacts(sorted, AnalyzeSorted(city, sorted).anomalies);
  }

  /** The anomaly facts for any list equal to `Anomalies(sorted)`. */
  lemma AnomalyFacts(sorted: seq<Observation>, a: seq<Anomaly>)
    requires SortedByTime(sorted) && a == Anomalies(sorted)
    ensures var idx := AnomalyPositions(Temperatures(sorted));
            && |a| == |idx|
            && (forall j :: 0 <= j < |idx| ==> 5 <= idx[j] < |sorted| && a[j] == AsAnomaly(sorted[idx[j]]))
            && (forall j, k :: 0 <= j < k < |idx| ==> idx[j] < idx[k])
            && (forall i :: 0 <= i < |sorted| ==> (i in idx <==> IsAnomaly(Temperatures(sorted), i)))
            && (forall j, k :: 0 <= j < k < |a| ==> a[j].timestamp <= a[k].timestamp)
            && (|sorted| <= 5 ==> a == [])
  {
    AnomaliesAreChronologicalSubsequence(sorted);
    NoAnomalyAmongFirstFive(sorted);
  }

  /** The record's trend is "positive" exactly when the least-squares
      numerator of temperature against day number over the time-ordered
      rows is positive. */
  lemma RecordTrend(city: string, sorted: seq<Observation>)
    requires |sorted| > 0 && SortedByTime(sorted)
    ensures AnalyzeSorted(city, sorted).trend == Positive <==>
              OlsNumerator(DayNumbers(sorted), Temperatures(sorted)) > 0.0
  {
    assert AnalyzeSorted(city, sorted).trend == CityTrend(sorted);
    TrendPositiveIff(DayNumbers(sorted), Temperatures(sorted));
  }

  /** The same for a city's rows in any order: the trend is that of the
      rows after sorting. */
  lemma CityTrendPositiveIff(city: string, obs: seq<Observation>)
    requires |obs| > 0
    ensures var sorted := SortByTime(obs);
            AnalyzeCity(city, obs).trend == Positive <==>
              OlsNumerator(DayNumbers(sorted), Temperatures(sorted)) > 0.0
  {
    RecordTrend(city, SortByTime(obs));
  }

  /** A city whose temperatures are all equal, given in any order, has a
      "negative" trend. */
  lemma CityConstantTemperaturesNegative(city: string, obs: seq<Observation>, v: real)
    requires |obs| > 0
    requires forall i :: 0 <= i < |obs| ==> obs[i].temperature == v
    ensures AnalyzeCity(city, obs).trend == Negative
  {
    CityTrendIgnoresRowOrder(city, obs);
    ConstantTemperaturesNegative(obs, v);
  }

  /** A city whose observations, given in any order, all lie less than a
      day apart has a "negative" trend. */
  lemma CitySameDayNegative(city: string, obs: seq<Observation>)
    requires |obs| > 0
    requires forall i, j :: 0 <= i < |obs| && 0 <= j < |obs| ==> obs[i].timestamp - obs[j].timestamp < SecondsPerDay
    ensures AnalyzeCity(city, obs).trend == Negative
  {
    SameDayCityTrend(obs);
    CityTrendIgnoresRowOrder(city, obs);
  }

  /** Rows less than a day apart all fall within the first day. */
  lemma SameDayCityTrend(obs: seq<Observation>)
    requires |obs| > 0
    requires forall i, j :: 0 <= i < |obs| && 0 <= j < |obs| ==> obs[i].timestamp - obs[j].timestamp < SecondsPerDay
    ensures CityTrend(obs) == Negative
  {
    var k :| 0 <= k < |obs| && obs[k].timestamp == Earliest(obs);
    SameDayNegative(obs);
  }

  /** A city with a single observation has a "negative" trend. */
  lemma CitySingleObservationNegative(city: string, obs: seq<Observation>)
    requires |obs| == 1
    ensures AnalyzeCity(city, obs).trend == Negative
  {
    CityTrendIgnoresRowOrder(city, obs);
    SingleObservationNegative(obs);
  }

  /** The day numbers of a table are those counted from its earliest
      timestamp, row by row. */
  lemma DayNumbersFromEarliest(obs: seq<Observation>)
    requires |obs| > 0
    ensures forall i :: 0 <= i < |obs| ==> DayNumbers(obs)[i] == DayOf(Earliest(obs))(obs[i])
  {
  }

  /** The least-squares numerator depends only on which rows there are,
      not on their order. */
  lemma NumeratorIgnoresRowOrder(a: seq<Observation>, b: seq<Observation>)
    requires |a| > 0 && multiset(a) == multiset(b)
    ensures |b| > 0
    ensures OlsNumerator(DayNumbers(a), Temperatures(a)) == OlsNumerator(DayNumbers(b), Temperatures(b))
  {
    EarliestIgnoresRowOrder(a, b);
    var t0 := Earliest(a);
    var xa, xb := DayNumbers(a), DayNumbers(b);
    var ya, yb := Temperatures(a), Temperatures(b);
    DayNumbersFromEarliest(a);
    DayNumbersFromEarliest(b);
    assert |a| == |multiset(a)| == |b|;
    assert Sum(xa) == Sum(xb) by {
      SumOfDays(a, xa, t0);
      SumOfDays(b, xb, t0);
      SumOfPermutation(a, b, DayOf(t0));
    }
    assert Sum(ya) == Sum(yb) by {
      SumOfTemperatures(a);
      SumOfTemperatures(b);
      SumOfPermutation(a, b, TemperatureOf());
    }
    assert Mean(xa) == Mean(xb) && Mean(ya) == Mean(yb);
    var cx, cy := Mean(xa), Mean(ya);
    CrossAsRowSum(a, xa, t0, cx, cy);
    CrossAsRowSum(b, xb, t0, cx, cy);
    SumOfPermutation(a, b, CrossOf(t0, cx, cy));
  }

  /** The record's trend is that of the city's rows in the order given:
      "positive" exactly when their least-squares numerator is positive,
      however an unstable sort arranges rows with equal timestamps. */
  lemma CityTrendIgnoresRowOrder(city: string, obs: seq<Observation>)
    requires |obs| > 0
    ensures AnalyzeCity(city, obs).trend == CityTrend(obs)
    ensures AnalyzeCity(city, obs).trend == Positive <==>
              OlsNumerator(DayNumbers(obs), Temperatures(obs)) > 0.0
  {
    CityTrendPositiveIff(city, obs);
    SortByTimePermutes(obs);
    NumeratorIgnoresRowOrder(SortByTime(obs), obs);
    TrendPositiveIff(DayNumbers(obs), Temperatures(obs));
  }
}

=== FILE: examples.dfy ===
/** Worked examples: the boundary cases the behaviour is pinned to, stated
    on concrete inputs. */
module Examples {
  import opened Wrappers
  import opened Stats
  import opened Seqs
  import opened Weather
  import opened TimeSort
  import opened Seasonal
  import opened Regression
  import opened Analysis
  import opened Normality

  /** A city whose only profile row is summer with mean 10 and standard
      deviation 2 (variance 4). */
  function SummerOnly(): CityStatistics
  {
    CityStatistics("A", [], [ProfileRow(Summer, 10.0, Some(4.0))], Negative, 10.0, 10.0, 10.0)
  }

  /** The normality boundary is inclusive: 14 is exactly two deviations
      above the mean and is normal, 14.5 is not, and a season without a
      row accepts anything. */
  lemma NormalityBoundary()
    ensures IsTemperatureNormal(SummerOnly(), 14.0, Summer)
    ensures IsTemperatureNormal(SummerOnly(), 6.0, Summer)
    ensures !IsTemperatureNormal(SummerOnly(), 14.5, Summer)
    ensures IsTemperatureNormal(SummerOnly(), 100.0, Winter)
  {
    SqDef(4.0);
    SqDef(-4.0);
    SqDef(4.5);
  }

  /** Three summer readings of a city on consecutive days from `t0`. */
  function ThreeDays(city: string, t0: int): seq<Observation>
  {
    [ Observation(city, t0, 10.0, Summer),
      Observation(city, t0 + 86400, 10.0, Summer),
      Observation(city, t0 + 172800, 50.0, Summer) ]
  }

  /** The readings 10, 10, 50 on consecutive days: no anomaly (a third
      reading is never flagged), an average of 70/3, a rising trend, and a
      single summer profile row. That row's variance is 1600/3, the sum of
      squared deviations 3200/3 divided by N - 1 = 2 (not by N = 3). */
  lemma ThreeDayCity(city: string, t0: int)
    ensures var r := AnalyzeCity(city, ThreeDays(city, t0));
            && r.anomalies == []
            && r.averageTemp == 70.0 / 3.0
            && r.minTemp == 10.0 && r.maxTemp == 50.0
            && r.trend == Positive
            && |r.seasonalProfile| == 1
            && r.seasonalProfile[0] == ProfileRow(Summer, 70.0 / 3.0, Some(1600.0 / 3.0))
  {
    var obs := ThreeDays(city, t0);
    var r := AnalyzeCity(city, obs);
    assert r == AnalyzeSorted(city, obs) by {
      ThreeDaysInOrder(city, t0);
    }
    assert r.anomalies == [] by {
      NoAnomalyAmongFirstFive(obs);
    }
    assert r.averageTemp == 70.0 / 3.0 && r.minTemp == 10.0 && r.maxTemp == 50.0 by {
      ThreeDaySummary(city, t0);
    }
    assert r.trend == Positive by {
      ThreeDayTrend(city, t0);
    }
    assert |r.seasonalProfile| == 1 && r.seasonalProfile[0].season == Summer by {
      ThreeDayProfile(city, t0);
    }
    assert r.seasonalProfile[0] == ProfileRow(Summer, 70.0 / 3.0, Some(1600.0 / 3.0)) by {
      ThreeDayProfile(city, t0);
      ThreeDayProfileRow(city, t0);
    }
  }

  lemma ThreeDaysInOrder(city: string, t0: int)
    ensures SortedByTime(ThreeDays(city, t0))
    ensures SortByTime(ThreeDays(city, t0)) == ThreeDays(city, t0)
  {
    var s := ThreeDays(city, t0);
    assert SortedByTime(s) by {
      forall i, j | 0 <= i < j < |s|
        ensures s[i].timestamp <= s[j].timestamp
      {
      }
    }
    SortSortedIsIdentity(s);
  }

  lemma SumOfThree(a: real, b: real, c: real)
    ensures Sum([a, b, c]) == a + b + c
  {
    assert [a, b, c][..2] == [a, b];
    assert [a, b][..1] == [a];
    assert [a][..0] == [];
    assert Sum([a]) == a;
    assert Sum([a, b]) == a + b;
  }

  lemma ThreeDaySummary(city: string, t0: int)
    ensures Mean(Temperatures(ThreeDays(city, t0))) == 70.0 / 3.0
    ensures Min(Temperatures(ThreeDays(city, t0))) == 10.0
    ensures Max(Temperatures(ThreeDays(city, t0))) == 50.0
  {
    var t := Temperatures(ThreeDays(city, t0));
    assert t == [10.0, 10.0, 50.0];
    SumOfThree(10.0, 10.0, 50.0);
    ExtremaAttained(t);
  }

  lemma CrossOfThree(xs: seq<real>, ys: seq<real>, cx: real, cy: real)
    requires |xs| == |ys| == 3
    ensures Cross(xs, ys, cx, cy)
            == Prod(xs[0] - cx, ys[0] - cy) + Prod(xs[1] - cx, ys[1] - cy) + Prod(xs[2] - cx, ys[2] - cy)
  {
    assert xs[..2][..1][..0] == [] && ys[..2][..1][..0] == [];
    assert Cross(xs[..2][..1], ys[..2][..1], cx, cy) == Prod(xs[0] - cx, ys[0] - cy);
    assert Cross(xs[..2], ys[..2], cx, cy) == Prod(xs[0] - cx, ys[0] - cy) + Prod(xs[1] - cx, ys[1] - cy);
  }

  lemma ThreeDayTrend(city: string, t0: int)
    ensures CityTrend(ThreeDays(city, t0)) == Positive
  {
    var obs := ThreeDays(city, t0);
    assert obs[..2][..1] == [obs[0]];
    assert Earliest(obs) == t0;
    var xs := DayNumbers(obs);
    var ys := Temperatures(obs);
    assert xs == [0.0, 1.0, 2.0];
    assert ys == [10.0, 10.0, 50.0];
    SumOfThree(0.0, 1.0, 2.0);
    SumOfThree(10.0, 10.0, 50.0);
    var my := 70.0 / 3.0;
    assert Mean(xs) == 1.0;
    assert Mean(ys) == my;
    CrossOfThree(xs, ys, 1.0, my);
    ProdDef(0.0 - 1.0, 10.0 - my);
    ProdDef(1.0 - 1.0, 10.0 - my);
    ProdDef(2.0 - 1.0, 50.0 - my);
    assert OlsNumerator(xs, ys) == 40.0;
    TrendPositiveIff(xs, ys);
  }

  lemma ThreeDayProfile(city: string, t0: int)
    ensures |SeasonalProfile(ThreeDays(city, t0))| == 1
    ensures SeasonalProfile(ThreeDays(city, t0))[0].season == Summer
  {
    var obs := ThreeDays(city, t0);
    ThreeDayGroups(city, t0);
    ProfileOfOneSeason(obs, Summer);
  }

  /** Only summer has observations. */
  lemma ThreeDayGroups(city: string, t0: int)
    ensures forall s :: |SeasonTemps(ThreeDays(city, t0), s)| > 0 <==> s == Summer
  {
    var obs := ThreeDays(city, t0);
    forall s
      ensures |SeasonTemps(obs, s)| > 0 <==> s == Summer
    {
      SeasonTempsNonEmpty(obs, s);
      assert obs[0].season == Summer;
    }
  }

  /** A table whose only observed season is `s` has a one-row profile. */
  lemma ProfileOfOneSeason(obs: seq<Observation>, s: Season)
    requires forall x :: |SeasonTemps(obs, x)| > 0 <==> x == s
    ensures |SeasonalProfile(obs)| == 1 && SeasonalProfile(obs)[0].season == s
  {
    var p := SeasonalProfile(obs);
    SeasonTempsNonEmpty(obs, s);
    ProfileCoversObservedSeasons(obs, s);
    ProfileOverRows(LabelOrder, Groups(obs));
    ProfileOrderedBySeasonLabel(obs);
    forall j | 0 <= j < |p|
      ensures p[j].season == s
    {
      assert |GroupRow(obs, p[j].season)| == 1;
    }
    if |p| >= 2 {
      assert false;
    }
  }

  /** The summer temperatures of the three days are all of them. */
  lemma ThreeDaySummerTemps(city: string, t0: int)
    ensures SeasonTemps(ThreeDays(city, t0), Summer) == [10.0, 10.0, 50.0]
  {
    FilterAll(ThreeDays(city, t0), InSeason(Summer));
  }

  lemma SumSqDevOfThree(a: real, b: real, c: real, m: real)
    ensures SumSqDev([a, b, c], m) == Sq(a - m) + Sq(b - m) + Sq(c - m)
  {
    assert [a, b, c][..2] == [a, b];
    SumSqDevOfTwo(a, b, m);
  }

  /** The sample variance of 10, 10, 50 is 1600/3. */
  lemma ThreeValueVariance()
    ensures SampleVariance([10.0, 10.0, 50.0]) == Some(1600.0 / 3.0)
  {
    var m := 70.0 / 3.0;
    SumOfThree(10.0, 10.0, 50.0);
    assert Mean([10.0, 10.0, 50.0]) == m;
    SumSqDevOfThree(10.0, 10.0, 50.0, m);
    SqDef(10.0 - m);
    SqDef(50.0 - m);
  }

  lemma ThreeDayProfileRow(city: string, t0: int)
    requires |SeasonalProfile(ThreeDays(city, t0))| == 1
    requires SeasonalProfile(ThreeDays(city, t0))[0].season == Summer
    ensures SeasonalProfile(ThreeDays(city, t0))[0] == ProfileRow(Summer, 70.0 / 3.0, Some(1600.0 / 3.0))
  {
    ThreeDaySummerTemps(city, t0);
    SumOfThree(10.0, 10.0, 50.0);
    ThreeValueVariance();
    OnlyProfileRow(ThreeDays(city, t0), Summer, [10.0, 10.0, 50.0], 70.0 / 3.0, 1600.0 / 3.0);
  }

  /** The only row of a one-row profile carries its season's mean and
      variance. */
  lemma OnlyProfileRow(obs: seq<Observation>, s: Season, t: seq<real>, m: real, v: real)
    requires |SeasonalProfile(obs)| == 1 && SeasonalProfile(obs)[0].season == s
    requires SeasonTemps(obs, s) == t && |t| > 0 && Mean(t) == m && SampleVariance(t) == Some(v)
    ensures SeasonalProfile(obs)[0] == ProfileRow(s, m, Some(v))
  {
    ProfileRowStatistics(obs, 0);
  }

  /** Two summer readings, 8 and 12, on consecutive days from `t0`. */
  function TwoDays(city: string, t0: int): seq<Observation>
  {
    [ Observation(city, t0, 8.0, Summer),
      Observation(city, t0 + 86400, 12.0, Summer) ]
  }

  lemma SumSqDevOfTwo(a: real, b: real, m: real)
    ensures SumSqDev([a, b], m) == Sq(a - m) + Sq(b - m)
  {
    assert [a, b][..1] == [a];
    assert [a][..0] == [];
    assert SumSqDev([a], m) == SumSqDev([], m) + Sq(a - m);
  }

  /** The summer temperatures of the two days are 8 and 12, with mean 10,
      sample variance 8 and a sum of squared deviations of 8. */
  lemma TwoDayStatistics(city: string, t0: int)
    ensures SeasonTemps(TwoDays(city, t0), Summer) == [8.0, 12.0]
    ensures Mean([8.0, 12.0]) == 10.0
    ensures SumSqDev([8.0, 12.0], 10.0) == 8.0
    ensures SampleVariance([8.0, 12.0]) == Some(8.0)
  {
    FilterAll(TwoDays(city, t0), InSeason(Summer));
    assert [8.0, 12.0][..1] == [8.0] && [8.0][..0] == [];
    assert Sum([8.0, 12.0]) == 20.0;
    SumSqDevOfTwo(8.0, 12.0, 10.0);
    SqDef(8.0 - 10.0);
    SqDef(12.0 - 10.0);
  }

  /** The normality band uses the sample deviation. For the summer readings
      8 and 12 (mean 10, sample variance 8) the reading 14.5 is normal,
      although it lies more than two population deviations (variance 4)
      from the mean. */
  lemma NormalityUsesSampleDeviation(city: string, t0: int)
    ensures var t := SeasonTemps(TwoDays(city, t0), Summer);
            && t == [8.0, 12.0] && Mean(t) == 10.0 && SampleVariance(t) == Some(8.0)
            && Sq(14.5 - 10.0) > 4.0 * (SumSqDev(t, 10.0) / (|t| as real))
    ensures IsTemperatureNormal(AnalyzeCity(city, TwoDays(city, t0)), 14.5, Summer)
  {
    TwoDayStatistics(city, t0);
    var t := SeasonTemps(TwoDays(city, t0), Summer);
    assert SumSqDev(t, 10.0) / (|t| as real) == 4.0 by {
      assert SumSqDev(t, 10.0) == 8.0 && |t| as real == 2.0;
    }
    assert Sq(14.5 - 10.0) == 20.25 by {
      SqDef(14.5 - 10.0);
    }
    TwoDayNormality(city, t0, TwoDays(city, t0));
  }

  lemma TwoDayNormality(city: string, t0: int, obs: seq<Observation>)
    requires obs == TwoDays(city, t0)
    ensures IsTemperatureNormal(AnalyzeCity(city, obs), 14.5, Summer)
  {
    TwoDayStatistics(city, t0);
    var t := SeasonTemps(obs, Summer);
    assert |obs| > 0 && |t| >= 2 && Mean(t) == 10.0 && SampleVariance(t) == Some(8.0);
    assert Sq(14.5 - 10.0) <= 4.0 * 8.0 by {
      SqDef(14.5 - 10.0);
    }
    SeasonNormalityOfCity(city, obs, 14.5, Summer, 10.0, 8.0);
  }
}

=== FILE: normality.dfy ===
/** The live-reading check: the season of the current date, and whether a
    temperature is normal for a season of a city's profile. */
module Normality {
  import opened Wrappers
  import opened Stats
  import opened Weather
  import opened Seasonal
  import opened TimeSort
  import opened Analysis

  /** The meteorological season of a month: December to February is
      winter, March to May spring, June to August summer, and every other
      month autumn. */
  function DetermineCurrentSeason(month: int): Season
  {
    if month in {12, 1, 2} then Winter
    else if month in {3, 4, 5} then Spring
    else if month in {6, 7, 8} then Summer
    else Autumn
  }

  /** Seasons as consecutive quarters of the year starting in December. */
  function QuarterSeason(month: int): Season
    requires 1 <= month <= 12
  {
    var q := (month % 12) / 3;
    if q == 0 then Winter else if q == 1 then Spring else if q == 2 then Summer else Autumn
  }

  /** For every calendar month the season is the quarter, counted from
      December, that the month falls in; any other number is autumn. */
  lemma SeasonIsQuarterOfYear(month: int)
    ensures 1 <= month <= 12 ==> DetermineCurrentSeason(month) == QuarterSeason(month)
    ensures !(1 <= month <= 12) ==> DetermineCurrentSeason(month) == Autumn
  {
  }

  /** Each season covers exactly three calendar months. */
  lemma ThreeMonthsPerSeason(s: Season)
    ensures |set m | 1 <= m <= 12 && DetermineCurrentSeason(m) == s| == 3
  {
    var months := set m | 1 <= m <= 12 && DetermineCurrentSeason(m) == s;
    match s
    case Winter => assert months == {12, 1, 2};
    case Spring => assert months == {3, 4, 5};
    case Summer => assert months == {6, 7, 8};
    case Autumn => assert months == {9, 10, 11};
  }

  /** The first row of the profile for season `s`, if any. */
  function FindProfileRow(profile: seq<ProfileRow>, s: Season): (r: Option<ProfileRow>)
    ensures r.Some? ==> r.value.season == s
  {
    if |profile| == 0 then None
    else if profile[0].season == s then Some(profile[0])
    else FindProfileRow(profile[1..], s)
  }

  /** The search finds a row exactly when the season has one, and then it
      finds the first such row. */
  lemma {:induction false} FindProfileRowFirst(profile: seq<ProfileRow>, s: Season)
    ensures FindProfileRow(profile, s).None? <==> forall j :: 0 <= j < |profile| ==> profile[j].season != s
    ensures FindProfileRow(profile, s).Some? ==>
              exists j :: 0 <= j < |profile| && profile[j] == FindProfileRow(profile, s).value
                          && forall k :: 0 <= k < j ==> profile[k].season != s
  {
    if |profile| > 0 && profile[0].season != s {
      var tail := profile[1..];
      FindProfileRowFirst(tail, s);
      if FindProfileRow(tail, s).Some? {
        var j :| 0 <= j < |tail| && tail[j] == FindProfileRow(tail, s).value
                 && forall k :: 0 <= k < j ==> tail[k].season != s;
        assert profile[j + 1] == tail[j];
        forall k | 0 <= k < j + 1
          ensures profile[k].season != s
        {
          if k > 0 {
            assert profile[k] == tail[k - 1];
          }
        }
      } else {
        forall j | 0 <= j < |profile|
          ensures profile[j].season != s
        {
          if j > 0 {
            assert profile[j] == tail[j - 1];
          }
        }
      }
    } else if |profile| > 0 {
      assert profile[0].season == s;
    }
  }

  /** A temperature is normal for a season of the city when it lies within
      two standard deviations of that season's mean, boundary included.
      Without a row for the season every temperature is normal; with a
      missing deviation the comparison is false. */
  function IsTemperatureNormal(stats: CityStatistics, current: real, s: Season): bool
  {
    match FindProfileRow(stats.seasonalProfile, s)
    case None => true
    case Some(row) =>
      match row.variance
      case None => false
      case Some(v) => Sq(current - row.mean) <= 4.0 * v
  }

  /** With no row for the season, any temperature is normal. */
  lemma NormalWithoutProfileRow(stats: CityStatistics, current: real, s: Season)
    requires forall j :: 0 <= j < |stats.seasonalProfile| ==> stats.seasonalProfile[j].season != s
    ensures IsTemperatureNormal(stats, current, s)
  {
    FindProfileRowFirst(stats.seasonalProfile, s);
  }

  /** The verdict uses the first row of the season and no other: rows after
      it are ignored. */
  lemma FirstMatchingRowDecides(stats: CityStatistics, current: real, s: Season, j: nat)
    requires j < |stats.seasonalProfile| && stats.seasonalProfile[j].season == s
    requires forall k :: 0 <= k < j ==> stats.seasonalProfile[k].season != s
    ensures FindProfileRow(stats.seasonalProfile, s) == Some(stats.seasonalProfile[j])
  {
    FindProfileRowFirst(stats.seasonalProfile, s);
    var r := FindProfileRow(stats.seasonalProfile, s);
    var i :| 0 <= i < |stats.seasonalProfile| && stats.seasonalProfile[i] == r.value
             && forall k :: 0 <= k < i ==> stats.seasonalProfile[k].season != s;
    assert i == j;
  }

  /** A season whose deviation is missing (a single observation) never has
      a normal temperature. */
  lemma NotNormalWithMissingDeviation(stats: CityStatistics, current: real, s: Season)
    requires FindProfileRow(stats.seasonalProfile, s).Some?
    requires FindProfileRow(stats.seasonalProfile, s).value.variance.None?
    ensures !IsTemperatureNormal(stats, current, s)
  {
  }

  /** Against the standard deviation `sd` of the first matching row, the
      check is `|current - mean| <= 2 * sd`, boundary included. */
  lemma NormalIsWithinTwoDeviations(stats: CityStatistics, current: real, s: Season, sd: real)
    requires FindProfileRow(stats.seasonalProfile, s).Some?
    requires var row := FindProfileRow(stats.seasonalProfile, s).value;
             row.variance.Some? && sd >= 0.0 && Sq(sd) == row.variance.value
    ensures var row := FindProfileRow(stats.seasonalProfile, s).value;
            IsTemperatureNormal(stats, current, s) <==> Abs(current - row.mean) <= 2.0 * sd
  {
    var row := FindProfileRow(stats.seasonalProfile, s).value;
    DeviationBySquares(current - row.mean, sd, row.variance.value);
  }

  /** A season none of the city's observations carries has no profile row,
      so every temperature is normal for it. */
  lemma UnobservedSeasonAlwaysNormal(city: string, obs: seq<Observation>, current: real, s: Season)
    requires |obs| > 0 && !Observed(obs, s)
    ensures IsTemperatureNormal(AnalyzeCity(city, obs), current, s)
  {
    ProfileSeasonsOfCity(city, obs, s);
    NormalWithoutProfileRow(AnalyzeCity(city, obs), current, s);
  }

  /** A season with a single observation has a missing deviation, so no
      temperature is normal for it. */
  lemma SingleObservationSeasonNeverNormal(city: string, sorted: seq<Observation>, current: real, s: Season)
    requires |sorted| > 0 && SortedByTime(sorted)
    requires |SeasonTemps(sorted, s)| == 1
    ensures !IsTemperatureNormal(AnalyzeSorted(city, sorted), current, s)
  {
    var p := SeasonalProfile(sorted);
    SeasonTempsNonEmpty(sorted, s);
    ProfileCoversObservedSeasons(sorted, s);
    FindProfileRowFirst(p, s);
    var j :| 0 <= j < |p| && p[j] == FindProfileRow(p, s).value
             && forall k :: 0 <= k < j ==> p[k].season != s;
    ProfileRowStatistics(sorted, j);
  }

  /** The row the check finds for a season of a city, whatever the order of
      the city's rows: none when the season is not observed, otherwise the
      mean and sample variance of that season's temperatures. */
  lemma CityProfileRow(city: string, obs: seq<Observation>, s: Season)
    requires |obs| > 0
    ensures var ts := SeasonTemps(obs, s);
            FindProfileRow(AnalyzeCity(city, obs).seasonalProfile, s)
              == if |ts| > 0 then Some(ProfileRow(s, Mean(ts), SampleVariance(ts))) else None
  {
    var sorted := SortByTime(obs);
    var p := SeasonalProfile(sorted);
    var ts := SeasonTemps(obs, s);
    var a := SeasonTemps(sorted, s);
    SortByTimePermutes(obs);
    SeasonStatisticsIgnoreRowOrder(sorted, obs, s);
    SeasonTempsNonEmpty(sorted, s);
    ProfileCoversObservedSeasons(sorted, s);
    FindProfileRowFirst(p, s);
    if |ts| > 0 {
      var j :| 0 <= j < |p| && p[j] == FindProfileRow(p, s).value
               && forall k :: 0 <= k < j ==> p[k].season != s;
      ProfileRowStatistics(sorted, j);
    }
  }

  /** For a season observed at least twice, with mean `m` and sample
      variance `v` of its temperatures, a reading is normal exactly when its
      squared distance from `m` is at most `4 * v`. */
  lemma SeasonNormalityOfCity(city: string, obs: seq<Observation>, current: real, s: Season, m: real, v: real)
    requires |obs| > 0 && |SeasonTemps(obs, s)| >= 2
    requires m == Mean(SeasonTemps(obs, s)) && SampleVariance(SeasonTemps(obs, s)) == Some(v)
    ensures IsTemperatureNormal(AnalyzeCity(city, obs), current, s) <==> Sq(current - m) <= 4.0 * v
  {
    CityProfileRow(city, obs, s);
    NormalAgainstRow(AnalyzeCity(city, obs), current, s, m, v);
  }

  /** Against a found row with mean `m` and variance `v`, the check compares
      the squared distance from `m` with `4 * v`. */
  lemma NormalAgainstRow(stats: CityStatistics, current: real, s: Season, m: real, v: real)
    requires FindProfileRow(stats.seasonalProfile, s) == Some(ProfileRow(s, m, Some(v)))
    ensures IsTemperatureNormal(stats, current, s) <==> Sq(current - m) <= 4.0 * v
  {
  }

  /** A season the city observed exactly once, with its rows in any order,
      never has a normal temperature. */
  lemma OnceObservedSeasonNeverNormal(city: string, obs: seq<Observation>, current: real, s: Season)
    requires |obs| > 0 && |SeasonTemps(obs, s)| == 1
    ensures !IsTemperatureNormal(AnalyzeCity(city, obs), current, s)
  {
    CityProfileRow(city, obs, s);
  }
}

=== FILE: regression.dfy ===
/** Trend of a city: the sign of the ordinary-least-squares slope of
    temperature against whole days elapsed since the city's earliest
    observation. */
module Regression {
  import opened Stats
  import opened Weather

  const SecondsPerDay: int := 86400

  /** The earliest timestamp of a non-empty table. */
  function Earliest(obs: seq<Observation>): (t: int)
    requires |obs| > 0
    ensures forall i :: 0 <= i < |obs| ==> t <= obs[i].timestamp
    ensures exists i :: 0 <= i < |obs| && obs[i].timestamp == t
  {
    if |obs| == 1 then obs[0].timestamp
    else
      var e := Earliest(obs[..|obs| - 1]);
      if obs[|obs| - 1].timestamp < e then obs[|obs| - 1].timestamp else e
  }

  /** The earliest timestamp depends only on which observations there are,
      not on their order. */
  lemma EarliestIgnoresRowOrder(a: seq<Observation>, b: seq<Observation>)
    requires |a| > 0 && multiset(a) == multiset(b)
    ensures |b| > 0 && Earliest(a) == Earliest(b)
  {
    assert |b| == |multiset(b)| == |a|;
    var i :| 0 <= i < |a| && a[i].timestamp == Earliest(a);
    assert a[i] in multiset(b);
    var k :| 0 <= k < |b| && b[k] == a[i];
    var j :| 0 <= j < |b| && b[j].timestamp == Earliest(b);
    assert b[j] in multiset(a);
    var m :| 0 <= m < |a| && a[m] == b[j];
  }

  /** Whole days from `t0` to `t`, rounded down. */
  function DayNumber(t: int, t0: int): int
    requires t0 <= t
  {
    (t - t0) / SecondsPerDay
  }

  /** A day number counts the whole days elapsed: `d` days have fully
      passed and day `d + 1` has not. */
  lemma DayNumberCountsWholeDays(t: int, t0: int)
    requires t0 <= t
    ensures DayNumber(t, t0) >= 0
    ensures DayNumber(t, t0) * SecondsPerDay <= t - t0 < (DayNumber(t, t0) + 1) * SecondsPerDay
    ensures DayNumber(t, t0) == 0 <==> t - t0 < SecondsPerDay
  {
  }

  /** The regressor column: each observation's day number, counted from the
      earliest observation. */
  function DayNumbers(obs: seq<Observation>): (d: seq<real>)
    requires |obs| > 0
    ensures |d| == |obs|
  {
    var t0 := Earliest(obs);
    seq(|obs|, i requires 0 <= i < |obs| => DayNumber(obs[i].timestamp, t0) as real)
  }

  /** Day numbers are never negative, the earliest observation is on day 0,
      and on a time-sorted table they never decrease. */
  lemma DayNumbersFacts(obs: seq<Observation>)
    requires |obs| > 0
    ensures forall i :: 0 <= i < |obs| ==> DayNumbers(obs)[i] >= 0.0
    ensures forall i :: 0 <= i < |obs| && obs[i].timestamp == Earliest(obs) ==> DayNumbers(obs)[i] == 0.0
    ensures SortedByTime(obs) ==>
              forall i, j :: 0 <= i < j < |obs| ==> DayNumbers(obs)[i] <= DayNumbers(obs)[j]
  {
    forall i | 0 <= i < |obs|
      ensures DayNumbers(obs)[i] >= 0.0
    {
      DayNumbersOrdered(obs, i, i);
    }
    if SortedByTime(obs) {
      forall i, j | 0 <= i < j < |obs|
        ensures DayNumbers(obs)[i] <= DayNumbers(obs)[j]
      {
        DayNumbersOrdered(obs, i, j);
      }
    }
  }

  lemma DayNumbersOrdered(obs: seq<Observation>, i: nat, j: nat)
    requires i < |obs| && j < |obs|
    requires obs[i].timestamp <= obs[j].timestamp
    ensures 0.0 <= DayNumbers(obs)[i] <= DayNumbers(obs)[j]
  {
    var t0 := Earliest(obs);
    var a := obs[i].timestamp - t0;
    var b := obs[j].timestamp - t0;
    DivisionMonotone(0, a);
    DivisionMonotone(a, b);
    assert DayNumbers(obs)[i] == (a / SecondsPerDay) as real;
    assert DayNumbers(obs)[j] == (b / SecondsPerDay) as real;
  }

  lemma DivisionMonotone(a: int, b: int)
    requires 0 <= a <= b
    ensures a / SecondsPerDay <= b / SecondsPerDay
  {
  }

  /** A row's day number counted from `t0` (0 for a row before `t0`). */
  function DayOf(t0: int): Observation -> real
  {
    (o: Observation) => if t0 <= o.timestamp then DayNumber(o.timestamp, t0) as real else 0.0
  }

  /** The regressor column, as a sum over the rows. */
  lemma {:induction false} SumOfDays(obs: seq<Observation>, xs: seq<real>, t0: int)
    requires |xs| == |obs|
    requires forall i :: 0 <= i < |obs| ==> xs[i] == DayOf(t0)(obs[i])
    ensures Sum(xs) == SumOf(obs, DayOf(t0))
  {
    if |obs| > 0 {
      var n := |obs|;
      SumOfDays(obs[..n - 1], xs[..n - 1], t0);
    }
  }

  /** Sum of the products of deviations of `xs` from `cx` and of `ys` from
      `cy`. */
  function Cross(xs: seq<real>, ys: seq<real>, cx: real, cy: real): real
    requires |xs| == |ys|
  {
    if |xs| == 0 then 0.0
    else Cross(xs[..|xs| - 1], ys[..|ys| - 1], cx, cy) + Prod(xs[|xs| - 1] - cx, ys[|ys| - 1] - cy)
  }

  /** A row's term of `Cross` for day numbers counted from `t0`. */
  function CrossOf(t0: int, cx: real, cy: real): Observation -> real
  {
    (o: Observation) => Prod(DayOf(t0)(o) - cx, o.temperature - cy)
  }

  /** `Cross` over a table's day numbers and temperatures, as a sum over
      the rows. */
  lemma {:induction false} CrossAsRowSum(obs: seq<Observation>, xs: seq<real>, t0: int, cx: real, cy: real)
    requires |xs| == |obs|
    requires forall i :: 0 <= i < |obs| ==> xs[i] == DayOf(t0)(obs[i])
    ensures Cross(xs, Temperatures(obs), cx, cy) == SumOf(obs, CrossOf(t0, cx, cy))
  {
    if |obs| > 0 {
      var n := |obs|;
      assert Temperatures(obs)[..n - 1] == Temperatures(obs[..n - 1]);
      CrossAsRowSum(obs[..n - 1], xs[..n - 1], t0, cx, cy);
    }
  }

  /** Product, kept folded (like `Stats.Sq`) until `ProdDef` is applied. */
  function Prod(u: real, v: real): real
  {
    Multiplied(u, v, 1)
  }

  function Multiplied(u: real, v: real, delay: nat): real
  {
    if delay == 0 then u * v else Multiplied(u, v, delay - 1)
  }

  lemma ProdDef(u: real, v: real)
    ensures Prod(u, v) == u * v
  {
    assert Multiplied(u, v, 1) == Multiplied(u, v, 0);
  }

  /** Numerator of the least-squares slope. */
  function OlsNumerator(xs: seq<real>, ys: seq<real>): real
    requires |xs| == |ys| > 0
  {
    Cross(xs, ys, Mean(xs), Mean(ys))
  }

  /** Denominator of the least-squares slope. */
  function OlsDenominator(xs: seq<real>): real
    requires |xs| > 0
  {
    SumSqDev(xs, Mean(xs))
  }

  /** The least-squares slope of `ys` against `xs`; when every `x` is the
      same the regressor has no spread and the minimum-norm solution, 0, is
      taken. */
  function Slope(xs: seq<real>, ys: seq<real>): real
    requires |xs| == |ys| > 0
  {
    if OlsDenominator(xs) == 0.0 then 0.0 else OlsNumerator(xs, ys) / OlsDenominator(xs)
  }

  /** "positive" exactly for a strictly positive slope. */
  function TrendOf(xs: seq<real>, ys: seq<real>): Trend
    requires |xs| == |ys| > 0
  {
    if Slope(xs, ys) > 0.0 then Positive else Negative
  }

  /** The trend of a city's table. */
  function CityTrend(obs: seq<Observation>): Trend
    requires |obs| > 0
  {
    TrendOf(DayNumbers(obs), Temperatures(obs))
  }

  /** When every `x` equals the centre, every product vanishes. */
  lemma {:induction false} CrossConstantLeft(xs: seq<real>, ys: seq<real>, cx: real, cy: real)
    requires |xs| == |ys|
    requires forall i :: 0 <= i < |xs| ==> xs[i] == cx
    ensures Cross(xs, ys, cx, cy) == 0.0
  {
    if |xs| > 0 {
      CrossConstantLeft(xs[..|xs| - 1], ys[..|ys| - 1], cx, cy);
      ProdDef(xs[|xs| - 1] - cx, ys[|ys| - 1] - cy);
    }
  }

  /** When every `y` equals the centre, every product vanishes. */
  lemma {:induction false} CrossConstantRight(xs: seq<real>, ys: seq<real>, cx: real, cy: real)
    requires |xs| == |ys|
    requires forall i :: 0 <= i < |ys| ==> ys[i] == cy
    ensures Cross(xs, ys, cx, cy) == 0.0
  {
    if |xs| > 0 {
      CrossConstantRight(xs[..|xs| - 1], ys[..|ys| - 1], cx, cy);
      ProdDef(xs[|xs| - 1] - cx, ys[|ys| - 1] - cy);
    }
  }

  lemma QuotientSign(a: real, b: real)
    requires b > 0.0
    ensures a / b > 0.0 <==> a > 0.0
  {
    if a > 0.0 {
      PositiveQuotient(a, b);
    } else {
      NonPositiveQuotient(a, b);
    }
  }

  lemma PositiveQuotient(a: real, b: real)
    requires a > 0.0 && b > 0.0
    ensures a / b > 0.0
  {
  }

  lemma NonPositiveQuotient(a: real, b: real)
    requires a <= 0.0 && b > 0.0
    ensures a / b <= 0.0
  {
    NonNegativeQuotient(-a, b);
    assert -a / b == -(a / b);
  }

  /** The trend is "positive" exactly when the numerator of the slope is
      positive: a regressor without spread forces a zero numerator. */
  lemma TrendPositiveIff(xs: seq<real>, ys: seq<real>)
    requires |xs| == |ys| > 0
    ensures TrendOf(xs, ys) == Positive <==> OlsNumerator(xs, ys) > 0.0
    ensures TrendOf(xs, ys) == Positive <==> Slope(xs, ys) > 0.0
  {
    SumSqDevNonNegative(xs, Mean(xs));
    if OlsDenominator(xs) == 0.0 {
      CrossConstantLeft(xs, ys, Mean(xs), Mean(ys));
    } else {
      QuotientSign(OlsNumerator(xs, ys), OlsDenominator(xs));
    }
  }

  /** A constant temperature series has a "negative" trend. */
  lemma ConstantTemperaturesNegative(obs: seq<Observation>, v: real)
    requires |obs| > 0
    requires forall i :: 0 <= i < |obs| ==> obs[i].temperature == v
    ensures CityTrend(obs) == Negative
  {
    var ys := Temperatures(obs);
    MeanConstant(ys, v);
    CrossConstantRight(DayNumbers(obs), ys, Mean(DayNumbers(obs)), Mean(ys));
    TrendPositiveIff(DayNumbers(obs), ys);
  }

  /** Observations all within one day of the earliest share day number 0,
      so the trend is "negative". */
  lemma SameDayNegative(obs: seq<Observation>)
    requires |obs| > 0
    requires forall i :: 0 <= i < |obs| ==> obs[i].timestamp - Earliest(obs) < SecondsPerDay
    ensures CityTrend(obs) == Negative
  {
    var xs := DayNumbers(obs);
    forall i | 0 <= i < |obs|
      ensures xs[i] == 0.0
    {
      DayNumberCountsWholeDays(obs[i].timestamp, Earliest(obs));
    }
    MeanConstant(xs, 0.0);
    CrossConstantLeft(xs, Temperatures(obs), Mean(xs), Mean(Temperatures(obs)));
    TrendPositiveIff(xs, Temperatures(obs));
  }

  /** A single observation has a "negative" trend. */
  lemma SingleObservationNegative(obs: seq<Observation>)
    requires |obs| == 1
    ensures CityTrend(obs) == Negative
  {
    SameDayNegative(obs);
  }

  /** The temperatures of an exact line `a + b * x`. */
  function Line(xs: seq<real>, a: real, b: real): (ys: seq<real>)
    ensures |ys| == |xs|
    ensures forall i :: 0 <= i < |xs| ==> ys[i] == a + b * xs[i]
  {
    seq(|xs|, i requires 0 <= i < |xs| => a + b * xs[i])
  }

  lemma LinePrefix(xs: seq<real>, a: real, b: real)
    requires |xs| > 0
    ensures Line(xs, a, b)[..|xs| - 1] == Line(xs[..|xs| - 1], a, b)
  {
    var p := xs[..|xs| - 1];
    forall k | 0 <= k < |p|
      ensures Line(xs, a, b)[k] == Line(p, a, b)[k]
    {
    }
  }

  /** The sum of a line over `xs`, products kept folded. */
  lemma {:induction false} SumLine(xs: seq<real>, a: real, b: real)
    ensures Sum(Line(xs, a, b)) == Prod(|xs| as real, a) + Prod(b, Sum(xs))
  {
    if |xs| > 0 {
      var n := |xs|;
      var p := xs[..n - 1];
      var x := xs[n - 1];
      var ys := Line(xs, a, b);
      var y := ys[n - 1];
      assert Sum(ys) == Sum(Line(p, a, b)) + y by {
        LinePrefix(xs, a, b);
      }
      SumLine(p, a, b);
      assert Sum(xs) == Sum(p) + x;
      assert y == a + b * x;
      SumLineStep(Sum(Line(p, a, b)), Sum(ys), Sum(p), Sum(xs), x, y, a, b, |p| as real, n as real);
    } else {
      ProdDef(0.0, a);
      ProdDef(b, 0.0);
    }
  }

  lemma SumLineStep(sl: real, sl': real, s: real, s': real, x: real, y: real, a: real, b: real, k: real, n: real)
    requires sl == Prod(k, a) + Prod(b, s)
    requires y == a + b * x
    requires sl' == sl + y
    requires s' == s + x
    requires n == k + 1.0
    ensures sl' == Prod(n, a) + Prod(b, s')
  {
    ProdDef(k, a);
    ProdDef(b, s);
    ProdDef(n, a);
    ProdDef(b, s');
  }

  /** The mean of a line is the line at the mean. */
  lemma MeanLine(xs: seq<real>, a: real, b: real)
    requires |xs| > 0
    ensures Mean(Line(xs, a, b)) == a + b * Mean(xs)
  {
    SumLine(xs, a, b);
    ProdDef(|xs| as real, a);
    ProdDef(b, Sum(xs));
    MeanLineStep(Sum(Line(xs, a, b)), Sum(xs), a, b, |xs| as real);
  }

  lemma MeanLineStep(sl: real, s: real, a: real, b: real, n: real)
    requires n > 0.0
    requires sl == n * a + b * s
    ensures sl / n == a + b * (s / n)
  {
    assert sl / n == (n * a) / n + (b * s) / n;
  }

  /** Against a line, the cross sum is `b` times the spread of `xs`. */
  lemma {:induction false} CrossLine(xs: seq<real>, a: real, b: real, c: real, cy: real)
    requires cy == a + b * c
    ensures Cross(xs, Line(xs, a, b), c, cy) == b * SumSqDev(xs, c)
  {
    if |xs| > 0 {
      var n := |xs|;
      var p := xs[..n - 1];
      var ys := Line(xs, a, b);
      var x := xs[n - 1];
      LinePrefix(xs, a, b);
      CrossLine(p, a, b, c, cy);
      assert Cross(xs, ys, c, cy) == Cross(p, Line(p, a, b), c, cy) + Prod(x - c, ys[n - 1] - cy);
      assert SumSqDev(xs, c) == SumSqDev(p, c) + Sq(x - c);
      assert ys[n - 1] == a + b * x;
      LineTerm(x, ys[n - 1], a, b, c, cy);
      DistributeStep(Cross(p, Line(p, a, b), c, cy), SumSqDev(p, c), Prod(x - c, ys[n - 1] - cy), Sq(x - c), b);
    } else {
      assert b * 0.0 == 0.0;
    }
  }

  lemma DistributeStep(cr: real, ss: real, pr: real, sq: real, b: real)
    requires cr == b * ss && pr == b * sq
    ensures cr + pr == b * (ss + sq)
  {
  }

  lemma LineTerm(x: real, y: real, a: real, b: real, c: real, cy: real)
    requires y == a + b * x && cy == a + b * c
    ensures Prod(x - c, y - cy) == b * Sq(x - c)
  {
    SqDef(x - c);
    ProdDef(x - c, y - cy);
    assert y - cy == b * (x - c);
  }

  /** Least squares recovers an exact line: when the regressor has spread,
      the slope fitted to `a + b * x` is `b`, so the trend is "positive"
      exactly when `b > 0`. */
  lemma SlopeOfExactLine(xs: seq<real>, a: real, b: real)
    requires |xs| > 0 && OlsDenominator(xs) != 0.0
    ensures Slope(xs, Line(xs, a, b)) == b
    ensures TrendOf(xs, Line(xs, a, b)) == Positive <==> b > 0.0
  {
    var ys := Line(xs, a, b);
    var d := OlsDenominator(xs);
    MeanLine(xs, a, b);
    CrossLine(xs, a, b, Mean(xs), Mean(ys));
    assert OlsNumerator(xs, ys) == b * d;
    CancelQuotient(b, d);
    assert Slope(xs, ys) == b;
  }

  lemma CancelQuotient(b: real, d: real)
    requires d != 0.0
    ensures (b * d) / d == b
  {
  }
}

=== FILE: rolling.dfy ===
/** Rolling-window anomaly detection: for each observation (in time order)
    the mean and sample variance of a trailing window of up to 30
    observations, and the flag "deviates from the window mean by more than
    two window standard deviations". */
module Rolling {
  import opened Wrappers
  import opened Stats

  /** Window length, in observations; a window is computed as soon as it
      holds one observation. */
  const WindowSize: nat := 30

  /** The trailing window ending at position `i`: the observation itself
      and up to 29 before it. */
  function Window(temps: seq<real>, i: nat): (w: seq<real>)
    requires i < |temps|
    ensures |w| == if i < WindowSize then i + 1 else WindowSize
    ensures forall k :: 0 <= k < |w| ==> w[k] == temps[i + 1 - |w| + k]
  {
    if i < WindowSize then temps[..i + 1] else temps[i + 1 - WindowSize..i + 1]
  }

  function RollingMean(temps: seq<real>, i: nat): real
    requires i < |temps|
  {
    Mean(Window(temps, i))
  }

  /** Square of the rolling standard deviation; a one-observation window
      has a missing deviation, which is replaced by 0. */
  function RollingVariance(temps: seq<real>, i: nat): real
    requires i < |temps|
  {
    SampleVariance(Window(temps, i)).GetOr(0.0)
  }

  /** The observation at `i` deviates from its rolling mean by strictly more
      than twice its rolling standard deviation (compared through squares,
      see `Stats.DeviationBySquares`). */
  predicate IsAnomaly(temps: seq<real>, i: nat)
    requires i < |temps|
  {
    Sq(temps[i] - RollingMean(temps, i)) > 4.0 * RollingVariance(temps, i)
  }

  /** The positions below `k` at which `flag` holds, in increasing order. */
  function PositionsBelow(k: nat, flag: nat -> bool): (r: seq<nat>)
    ensures |r| <= k
    ensures forall j :: 0 <= j < |r| ==> r[j] < k
    ensures forall a, b :: 0 <= a < b < |r| ==> r[a] < r[b]
  {
    if k == 0 then []
    else PositionsBelow(k - 1, flag) + (if flag(k - 1) then [k - 1] else [])
  }

  /** Membership in `PositionsBelow(k, flag)` is exactly `flag`. */
  lemma {:induction false} PositionsBelowExact(k: nat, flag: nat -> bool)
    ensures forall i :: 0 <= i < k ==> (i in PositionsBelow(k, flag) <==> flag(i))
  {
    if k > 0 {
      PositionsBelowExact(k - 1, flag);
    }
  }

  /** The anomaly flag as a predicate on positions. */
  function AnomalyFlag(temps: seq<real>): nat -> bool
  {
    (i: nat) => i < |temps| && IsAnomaly(temps, i)
  }

  /** The flagged positions of a whole series, in increasing order. */
  function AnomalyPositions(temps: seq<real>): (r: seq<nat>)
    ensures forall j :: 0 <= j < |r| ==> r[j] < |temps|
    ensures forall a, b :: 0 <= a < b < |r| ==> r[a] < r[b]
  {
    PositionsBelow(|temps|, AnomalyFlag(temps))
  }

  /** The positions are in range and strictly increasing, and membership
      is exactly the anomaly flag. */
  lemma AnomalyPositionsExact(temps: seq<real>)
    ensures forall j :: 0 <= j < |AnomalyPositions(temps)| ==> AnomalyPositions(temps)[j] < |temps|
    ensures forall i :: 0 <= i < |temps| ==> (i in AnomalyPositions(temps) <==> IsAnomaly(temps, i))
    ensures forall a, b :: 0 <= a < b < |AnomalyPositions(temps)| ==>
              AnomalyPositions(temps)[a] < AnomalyPositions(temps)[b]
  {
    PositionsBelowExact(|temps|, AnomalyFlag(temps));
  }

  /** The rolling flag against the standard deviation itself: for any
      `sd >= 0` whose square is the rolling variance, the observation is
      flagged exactly when its distance from the rolling mean exceeds
      `2 * sd`. */
  lemma AnomalyIsTwoDeviations(temps: seq<real>, i: nat, sd: real)
    requires i < |temps|
    requires sd >= 0.0 && Sq(sd) == RollingVariance(temps, i)
    ensures IsAnomaly(temps, i) <==> Abs(temps[i] - RollingMean(temps, i)) > 2.0 * sd
  {
    DeviationBySquares(temps[i] - RollingMean(temps, i), sd, RollingVariance(temps, i));
  }

  /** None of the first five observations can be flagged: a window of at
      most five values never holds a last value more than two sample
      standard deviations from its mean. In particular the first
      observation, whose window is itself, is never flagged. */
  lemma EarlyObservationsNeverFlagged(temps: seq<real>, i: nat)
    requires i < |temps| && i < 5
    ensures !IsAnomaly(temps, i)
  {
    var w := Window(temps, i);
    assert w[|w| - 1] == temps[i];
    SmallSampleWithinTwoDeviations(w);
  }

  /** Every flagged position is the sixth observation or later. */
  lemma FlaggedFromSixth(temps: seq<real>)
    ensures forall j :: 0 <= j < |AnomalyPositions(temps)| ==> AnomalyPositions(temps)[j] >= 5
  {
    var idx := AnomalyPositions(temps);
    AnomalyPositionsExact(temps);
    forall j | 0 <= j < |idx|
      ensures idx[j] >= 5
    {
      if idx[j] < 5 {
        EarlyObservationsNeverFlagged(temps, idx[j]);
      }
    }
  }

  /** The bound five is tight: in the series 0, 0, 0, 0, 0, 1 the sixth
      observation is flagged. */
  lemma SixthObservationCanBeFlagged()
    ensures IsAnomaly([0.0, 0.0, 0.0, 0.0, 0.0, 1.0], 5)
  {
    var t := [0.0, 0.0, 0.0, 0.0, 0.0, 1.0];
    var zeros := t[..5];
    assert Window(t, 5) == t;
    assert forall k :: 0 <= k < |zeros| ==> zeros[k] == 0.0;
    SumConstant(zeros, 0.0);
    assert Sum(t) == 1.0;
    var m := 1.0 / 6.0;
    assert Mean(t) == m;
    SumSqDevConstant(zeros, 0.0, m);
    SqDef(0.0 - m);
    SqDef(1.0 - m);
    assert SumSqDev(t, m) == 5.0 * Sq(0.0 - m) + Sq(1.0 - m);
    assert RollingVariance(t, 5) == SumSqDev(t, m) / 5.0;
  }

  /** The rolling deviation is the sample one, with denominator N - 1: in
      the series 0, 0, 0, 0, -1, 3 the sixth observation is not flagged
      (rolling mean 1/3, variance 28/15), although it lies more than two
      population deviations (variance 14/9) from that mean. */
  lemma RollingUsesSampleDeviation()
    ensures var t := [0.0, 0.0, 0.0, 0.0, -1.0, 3.0];
            && RollingMean(t, 5) == 1.0 / 3.0
            && RollingVariance(t, 5) == 28.0 / 15.0
            && Sq(3.0 - 1.0 / 3.0) > 4.0 * (SumSqDev(t, 1.0 / 3.0) / 6.0)
            && !IsAnomaly(t, 5)
  {
    var t := [0.0, 0.0, 0.0, 0.0, -1.0, 3.0];
    var zeros := t[..4];
    assert Window(t, 5) == t;
    assert t[..5][..4] == zeros && t[..5] == zeros + [-1.0];
    assert forall k :: 0 <= k < |zeros| ==> zeros[k] == 0.0;
    SumConstant(zeros, 0.0);
    assert Sum(t) == 2.0;
    var m := 1.0 / 3.0;
    assert Mean(t) == m;
    SumSqDevConstant(zeros, 0.0, m);
    SqDef(0.0 - m);
    SqDef(-1.0 - m);
    SqDef(3.0 - m);
    assert SumSqDev(t, m) == 4.0 * Sq(0.0 - m) + Sq(-1.0 - m) + Sq(3.0 - m);
    assert SumSqDev(t, m) == 28.0 / 3.0;
    assert RollingVariance(t, 5) == SumSqDev(t, m) / 5.0;
  }
}

=== FILE: seasonal.dfy ===
/** The seasonal profile of a city: one row per season present among its
    observations, in the label order of the group-by, holding the mean and
    the (sample) variance of that season's temperatures. */
module Seasonal {
  import opened Wrappers
  import opened Stats
  import opened Seqs
  import opened Weather

  /** The seasons in the order a group-by over their labels emits them. */
  const LabelOrder: seq<Season> := [Autumn, Spring, Summer, Winter]

  function InSeason(s: Season): Observation -> bool
  {
    (o: Observation) => o.season == s
  }

  /** The temperatures observed in season `s`, in table order. */
  function SeasonTemps(obs: seq<Observation>, s: Season): seq<real>
  {
    Temperatures(Filter(obs, InSeason(s)))
  }

  /** The group of season `s`: no row when the season has no temperatures,
      otherwise one row with their mean and sample variance. */
  function GroupRow(obs: seq<Observation>, s: Season): (g: seq<ProfileRow>)
    ensures |g| <= 1
    ensures |g| == 1 <==> |SeasonTemps(obs, s)| > 0
    ensures |g| == 1 ==> g[0].season == s
  {
    var t := SeasonTemps(obs, s);
    if |t| > 0 then [ProfileRow(s, Mean(t), SampleVariance(t))] else []
  }

  /** The groups of all seasons of a table. */
  function Groups(obs: seq<Observation>): Season -> seq<ProfileRow>
  {
    s => GroupRow(obs, s)
  }

  /** Each season's group is empty or a single row for that season. */
  predicate AtMostOneRowEach(group: Season -> seq<ProfileRow>)
  {
    forall s :: |group(s)| <= 1 && (|group(s)| == 1 ==> group(s)[0].season == s)
  }

  /** The rows of the groups of the seasons in `labels`, in list order. */
  function ProfileOver(labels: seq<Season>, group: Season -> seq<ProfileRow>): (p: seq<ProfileRow>)
    requires AtMostOneRowEach(group)
    ensures |p| <= |labels|
  {
    if |labels| == 0 then [] else group(labels[0]) + ProfileOver(labels[1..], group)
  }

  function SeasonalProfile(obs: seq<Observation>): seq<ProfileRow>
  {
    ProfileOver(LabelOrder, Groups(obs))
  }

  /** Some observation carries season `s`. */
  predicate Observed(obs: seq<Observation>, s: Season)
  {
    exists i :: 0 <= i < |obs| && obs[i].season == s
  }

  /** A season has temperatures exactly when it is observed. */
  lemma SeasonTempsNonEmpty(obs: seq<Observation>, s: Season)
    ensures |SeasonTemps(obs, s)| > 0 <==> Observed(obs, s)
  {
    FilterEmpty(obs, InSeason(s));
    if Observed(obs, s) {
      var i :| 0 <= i < |obs| && obs[i].season == s;
      assert InSeason(s)(obs[i]);
    }
  }

  /** Every observation falls in exactly one season, so the four seasons'
      temperature lists together hold every temperature exactly once. */
  lemma {:induction false} SeasonsPartition(obs: seq<Observation>)
    ensures |SeasonTemps(obs, Autumn)| + |SeasonTemps(obs, Spring)|
          + |SeasonTemps(obs, Summer)| + |SeasonTemps(obs, Winter)| == |obs|
    ensures multiset(SeasonTemps(obs, Autumn)) + multiset(SeasonTemps(obs, Spring))
          + multiset(SeasonTemps(obs, Summer)) + multiset(SeasonTemps(obs, Winter))
            == multiset(Temperatures(obs))
  {
    if |obs| > 0 {
      SeasonsPartition(obs[1..]);
      PartitionStep(obs);
    }
    CardinalityOfUnion(obs);
  }

  /** The lengths of the four lists add up as their multisets do. */
  lemma CardinalityOfUnion(obs: seq<Observation>)
    requires multiset(SeasonTemps(obs, Autumn)) + multiset(SeasonTemps(obs, Spring))
           + multiset(SeasonTemps(obs, Summer)) + multiset(SeasonTemps(obs, Winter))
             == multiset(Temperatures(obs))
    ensures |SeasonTemps(obs, Autumn)| + |SeasonTemps(obs, Spring)|
          + |SeasonTemps(obs, Summer)| + |SeasonTemps(obs, Winter)| == |obs|
  {
    assert |multiset(Temperatures(obs))| == |obs|;
  }

  /** The partition of a non-empty table from that of all but its first
      row. */
  lemma PartitionStep(obs: seq<Observation>)
    requires |obs| > 0
    requires multiset(SeasonTemps(obs[1..], Autumn)) + multiset(SeasonTemps(obs[1..], Spring))
           + multiset(SeasonTemps(obs[1..], Summer)) + multiset(SeasonTemps(obs[1..], Winter))
             == multiset(Temperatures(obs[1..]))
    ensures multiset(SeasonTemps(obs, Autumn)) + multiset(SeasonTemps(obs, Spring))
          + multiset(SeasonTemps(obs, Summer)) + multiset(SeasonTemps(obs, Winter))
            == multiset(Temperatures(obs))
  {
    var rest := obs[1..];
    var t := obs[0].temperature;
    SeasonTempsConsMultiset(obs, Autumn);
    SeasonTempsConsMultiset(obs, Spring);
    SeasonTempsConsMultiset(obs, Summer);
    SeasonTempsConsMultiset(obs, Winter);
    assert multiset(Temperatures(obs)) == multiset{t} + multiset(Temperatures(rest)) by {
      assert Temperatures(obs) == [t] + Temperatures(rest);
    }
    AddToOneSeason(
      multiset(SeasonTemps(rest, Autumn)), multiset(SeasonTemps(rest, Spring)),
      multiset(SeasonTemps(rest, Summer)), multiset(SeasonTemps(rest, Winter)),
      multiset(SeasonTemps(obs, Autumn)), multiset(SeasonTemps(obs, Spring)),
      multiset(SeasonTemps(obs, Summer)), multiset(SeasonTemps(obs, Winter)),
      t, obs[0].season);
  }

  /** Adding one temperature to the list of its own season adds it once to
      the union of the four lists. */
  lemma AddToOneSeason(a: multiset<real>, b: multiset<real>, c: multiset<real>, d: multiset<real>,
                       a': multiset<real>, b': multiset<real>, c': multiset<real>, d': multiset<real>,
                       t: real, s: Season)
    requires a' == (if s == Autumn then multiset{t} else multiset{}) + a
    requires b' == (if s == Spring then multiset{t} else multiset{}) + b
    requires c' == (if s == Summer then multiset{t} else multiset{}) + c
    requires d' == (if s == Winter then multiset{t} else multiset{}) + d
    ensures a' + b' + c' + d' == multiset{t} + (a + b + c + d)
  {
  }

  /** `SeasonTempsCons` for the multiset of the season's temperatures. */
  lemma SeasonTempsConsMultiset(obs: seq<Observation>, s: Season)
    requires |obs| > 0
    ensures multiset(SeasonTemps(obs, s))
              == (if obs[0].season == s then multiset{obs[0].temperature} else multiset{})
                 + multiset(SeasonTemps(obs[1..], s))
  {
    SeasonTempsCons(obs, s);
  }

  /** The season's temperatures of a non-empty table: the first row's, when
      it carries the season, followed by those of the rest. */
  lemma SeasonTempsCons(obs: seq<Observation>, s: Season)
    requires |obs| > 0
    ensures SeasonTemps(obs, s)
              == (if obs[0].season == s then [obs[0].temperature] else []) + SeasonTemps(obs[1..], s)
  {
    var head := if InSeason(s)(obs[0]) then [obs[0]] else [];
    var rest := Filter(obs[1..], InSeason(s));
    assert Filter(obs, InSeason(s)) == head + rest;
    assert Temperatures(head + rest) == Temperatures(head) + Temperatures(rest);
  }

  /** Every row drawn from `labels` is the one row of the group of its own
      season, which is one of the labels. */
  lemma {:induction false} ProfileOverRows(labels: seq<Season>, group: Season -> seq<ProfileRow>)
    requires AtMostOneRowEach(group)
    ensures forall j :: 0 <= j < |ProfileOver(labels, group)| ==>
              var r: ProfileRow := ProfileOver(labels, group)[j];
              r.season in labels && |group(r.season)| == 1 && r == group(r.season)[0]
  {
    if |labels| > 0 {
      ProfileOverRows(labels[1..], group);
      var head: seq<ProfileRow> := group(labels[0]);
      var tail: seq<ProfileRow> := ProfileOver(labels[1..], group);
      assert ProfileOver(labels, group) == head + tail;
      forall j | 0 <= j < |head + tail|
        ensures var r: ProfileRow := (head + tail)[j];
                r.season in labels && |group(r.season)| == 1 && r == group(r.season)[0]
      {
        if j >= |head| {
          assert (head + tail)[j] == tail[j - |head|];
          assert labels == [labels[0]] + labels[1..];
        } else {
          assert (head + tail)[j] == head[0];
        }
      }
    }
  }

  /** Every listed season whose group is not empty gets a row. */
  lemma {:induction false} ProfileOverComplete(labels: seq<Season>, group: Season -> seq<ProfileRow>, s: Season)
    requires AtMostOneRowEach(group)
    requires s in labels && |group(s)| == 1
    ensures exists j :: 0 <= j < |ProfileOver(labels, group)| && ProfileOver(labels, group)[j].season == s
  {
    var head := group(labels[0]);
    var tail := ProfileOver(labels[1..], group);
    assert ProfileOver(labels, group) == head + tail;
    if s == labels[0] {
      assert (head + tail)[0] == head[0];
    } else {
      assert labels == [labels[0]] + labels[1..];
      assert s in labels[1..];
      ProfileOverComplete(labels[1..], group, s);
      var j :| 0 <= j < |tail| && tail[j].season == s;
      assert (head + tail)[|head| + j] == tail[j];
    }
  }

  /** Rows in strictly increasing label rank. */
  predicate IncreasingRank(p: seq<ProfileRow>)
  {
    forall a, b :: 0 <= a < b < |p| ==> LabelRank(p[a].season) < LabelRank(p[b].season)
  }

  /** Two runs of increasing rank, the first entirely below the second,
      join into one. */
  lemma IncreasingRankAppend(head: seq<ProfileRow>, tail: seq<ProfileRow>)
    requires IncreasingRank(head) && IncreasingRank(tail)
    requires forall x, j :: 0 <= x < |head| && 0 <= j < |tail| ==>
               LabelRank(head[x].season) < LabelRank(tail[j].season)
    ensures IncreasingRank(head + tail)
  {
    var p := head + tail;
    forall a, b | 0 <= a < b < |p|
      ensures LabelRank(p[a].season) < LabelRank(p[b].season)
    {
      if b < |head| {
        assert p[a] == head[a] && p[b] == head[b];
      } else if a < |head| {
        assert p[a] == head[a] && p[b] == tail[b - |head|];
      } else {
        assert p[a] == tail[a - |head|] && p[b] == tail[b - |head|];
      }
    }
  }

  /** Rows drawn from labels in strictly increasing rank keep that order. */
  lemma {:induction false} ProfileOverOrdered(labels: seq<Season>, group: Season -> seq<ProfileRow>)
    requires AtMostOneRowEach(group)
    requires forall a, b :: 0 <= a < b < |labels| ==> LabelRank(labels[a]) < LabelRank(labels[b])
    ensures IncreasingRank(ProfileOver(labels, group))
  {
    if |labels| > 0 {
      ProfileOverOrdered(labels[1..], group);
      ProfileOverRows(labels[1..], group);
      var head: seq<ProfileRow> := group(labels[0]);
      var tail: seq<ProfileRow> := ProfileOver(labels[1..], group);
      assert ProfileOver(labels, group) == head + tail;
      forall x, j | 0 <= x < |head| && 0 <= j < |tail|
        ensures LabelRank(head[x].season) < LabelRank(tail[j].season)
      {
        assert head[x].season == labels[0];
        var k :| 0 <= k < |labels[1..]| && labels[1..][k] == tail[j].season;
        assert labels[k + 1] == tail[j].season;
      }
      IncreasingRankAppend(head, tail);
    }
  }

  /** One row per observed season, and only for observed seasons: a row for
      `s` exists exactly when some observation carries `s`. */
  lemma ProfileCoversObservedSeasons(obs: seq<Observation>, s: Season)
    ensures (exists j :: 0 <= j < |SeasonalProfile(obs)| && SeasonalProfile(obs)[j].season == s)
            <==> Observed(obs, s)
  {
    SeasonTempsNonEmpty(obs, s);
    var p := SeasonalProfile(obs);
    if exists j :: 0 <= j < |p| && p[j].season == s {
      var j :| 0 <= j < |p| && p[j].season == s;
      ProfileOverRows(LabelOrder, Groups(obs));
      assert |GroupRow(obs, s)| == 1;
    }
    if Observed(obs, s) {
      EverySeasonLabelled(s);
      assert |Groups(obs)(s)| == 1;
      ProfileOverComplete(LabelOrder, Groups(obs), s);
    }
  }

  lemma EverySeasonLabelled(s: Season)
    ensures s in LabelOrder
  {
    match s
    case Autumn => assert LabelOrder[0] == s;
    case Spring => assert LabelOrder[1] == s;
    case Summer => assert LabelOrder[2] == s;
    case Winter => assert LabelOrder[3] == s;
  }

  /** Rows come in label order, so no season has two rows. */
  lemma ProfileOrderedBySeasonLabel(obs: seq<Observation>)
    ensures forall a, b :: 0 <= a < b < |SeasonalProfile(obs)| ==>
              LabelRank(SeasonalProfile(obs)[a].season) < LabelRank(SeasonalProfile(obs)[b].season)
    ensures forall a, b :: 0 <= a < b < |SeasonalProfile(obs)| ==>
              SeasonalProfile(obs)[a].season != SeasonalProfile(obs)[b].season
  {
    ProfileOverOrdered(LabelOrder, Groups(obs));
  }

  /** Each row holds the arithmetic mean of its season's temperatures, which
      lies between their minimum and maximum, and their sample variance,
      which is missing exactly when the season has a single observation and
      otherwise is not negative. */
  lemma ProfileRowStatistics(obs: seq<Observation>, j: nat)
    requires j < |SeasonalProfile(obs)|
    ensures var r := SeasonalProfile(obs)[j];
            var t := SeasonTemps(obs, r.season);
            && |t| > 0
            && r.mean == Mean(t)
            && r.variance == SampleVariance(t)
            && Min(t) <= r.mean <= Max(t)
            && (r.variance.None? <==> |t| == 1)
            && (r.variance.Some? ==> r.variance.value >= 0.0)
  {
    ProfileOverRows(LabelOrder, Groups(obs));
    var r := SeasonalProfile(obs)[j];
    var t := SeasonTemps(obs, r.season);
    assert r == GroupRow(obs, r.season)[0];
    MeanWithinRange(t);
    if |t| >= 2 {
      SampleVarianceNonNegative(t);
    }
  }

  function TemperatureOf(): Observation -> real
  {
    (o: Observation) => o.temperature
  }

  function SqDevOf(c: real): Observation -> real
  {
    (o: Observation) => Sq(o.temperature - c)
  }

  /** The total temperature, as a sum over the observations. */
  lemma {:induction false} SumOfTemperatures(q: seq<Observation>)
    ensures Sum(Temperatures(q)) == SumOf(q, TemperatureOf())
  {
    if |q| > 0 {
      var front := q[..|q| - 1];
      assert Temperatures(q)[..|q| - 1] == Temperatures(front);
      SumOfTemperatures(front);
    }
  }

  /** The squared deviations of the temperatures, as a sum over the
      observations. */
  lemma {:induction false} SumSqDevOfTemperatures(q: seq<Observation>, c: real)
    ensures SumSqDev(Temperatures(q), c) == SumOf(q, SqDevOf(c))
  {
    if |q| > 0 {
      var front := q[..|q| - 1];
      assert Temperatures(q)[..|q| - 1] == Temperatures(front);
      SumSqDevOfTemperatures(front, c);
    }
  }

  /** A season's temperatures have the same count, mean and sample variance
      in any arrangement of the same rows. */
  lemma SeasonStatisticsIgnoreRowOrder(a: seq<Observation>, b: seq<Observation>, s: Season)
    requires multiset(a) == multiset(b)
    ensures var ta, tb := SeasonTemps(a, s), SeasonTemps(b, s);
            && |ta| == |tb|
            && (|tb| > 0 ==> Mean(ta) == Mean(tb))
            && SampleVariance(ta) == SampleVariance(tb)
  {
    var fa, fb := Filter(a, InSeason(s)), Filter(b, InSeason(s));
    var ta, tb := SeasonTemps(a, s), SeasonTemps(b, s);
    FilterPermutes(a, b, InSeason(s));
    assert |fa| == |multiset(fa)| == |multiset(fb)| == |fb|;
    SumOfPermutation(fa, fb, TemperatureOf());
    SumOfTemperatures(fa);
    SumOfTemperatures(fb);
    if |tb| >= 2 {
      var m := Mean(tb);
      SumOfPermutation(fa, fb, SqDevOf(m));
      SumSqDevOfTemperatures(fa, m);
      SumSqDevOfTemperatures(fb, m);
    }
  }
}

=== FILE: seqs.dfy ===
/** Order-preserving selection of the elements of a sequence that satisfy a
    predicate: the row selection `table[table[column] == value]` used both to
    split the table by city and to group a city's rows by season. */
module Seqs {

  function Filter<T>(s: seq<T>, p: T -> bool): (r: seq<T>)
    ensures |r| <= |s|
    ensures forall k :: 0 <= k < |r| ==> p(r[k])
  {
    if |s| == 0 then []
    else (if p(s[0]) then [s[0]] else []) + Filter(s[1..], p)
  }

  /** Membership, both directions: an element is selected exactly when it
      occurs in the input and satisfies the predicate. */
  lemma {:induction false} FilterMembership<T>(s: seq<T>, p: T -> bool, x: T)
    ensures x in Filter(s, p) <==> x in s && p(x)
  {
    if |s| > 0 {
      FilterMembership(s[1..], p, x);
      assert s == [s[0]] + s[1..];
    }
  }

  /** Selection distributes over concatenation. */
  lemma {:induction false} FilterAppend<T>(a: seq<T>, b: seq<T>, p: T -> bool)
    ensures Filter(a + b, p) == Filter(a, p) + Filter(b, p)
  {
    if |a| > 0 {
      assert (a + b)[1..] == a[1..] + b;
      FilterAppend(a[1..], b, p);
      assert (a + b)[0] == a[0];
    } else {
      assert a + b == b;
    }
  }

  /** Nothing is selected exactly when no element satisfies the predicate. */
  lemma {:induction false} FilterEmpty<T>(s: seq<T>, p: T -> bool)
    ensures |Filter(s, p)| == 0 <==> forall i :: 0 <= i < |s| ==> !p(s[i])
  {
    if |s| > 0 {
      FilterEmpty(s[1..], p);
      if p(s[0]) {
        assert |Filter(s, p)| > 0;
      } else {
        forall i | 1 <= i < |s| && !p(s[i])
          ensures !p(s[1..][i - 1])
        {
        }
      }
    }
  }

  /** Selecting with a predicate every element satisfies keeps everything. */
  lemma {:induction false} FilterAll<T>(s: seq<T>, p: T -> bool)
    requires forall i :: 0 <= i < |s| ==> p(s[i])
    ensures Filter(s, p) == s
  {
    if |s| > 0 {
      FilterAll(s[1..], p);
      assert s == [s[0]] + s[1..];
    }
  }

  /** Removing the last element of `a` and a matching occurrence in `b`
      leaves two arrangements of the same elements. */
  lemma RemoveMatched<T>(a: seq<T>, b: seq<T>, x: T, front: seq<T>, u: seq<T>, v: seq<T>)
    requires multiset(a) == multiset(b)
    requires a == front + [x] && b == u + [x] + v
    ensures multiset(u + v) == multiset(front)
  {
    calc {
      multiset(u + v);
      multiset(u) + multiset{x} + multiset(v) - multiset{x};
      { assert multiset(b) == multiset(u) + multiset{x} + multiset(v); }
      multiset(b) - multiset{x};
      { assert multiset(a) == multiset(front) + multiset{x}; }
      multiset(front) + multiset{x} - multiset{x};
      multiset(front);
    }
  }

  /** Selecting from two arrangements of the same elements selects the same
      elements. */
  lemma {:induction false} FilterPermutes<T>(a: seq<T>, b: seq<T>, p: T -> bool)
    requires multiset(a) == multiset(b)
    ensures multiset(Filter(a, p)) == multiset(Filter(b, p))
    decreases |a|
  {
    if |a| > 0 {
      var x := a[|a| - 1];
      var front := a[..|a| - 1];
      assert a == front + [x];
      assert x in multiset(b);
      var k :| 0 <= k < |b| && b[k] == x;
      var u, v := b[..k], b[k + 1..];
      assert b == u + [x] + v;
      RemoveMatched(a, b, x, front, u, v);
      var fx := Filter([x], p);
      calc {
        multiset(Filter(a, p));
        { FilterAppend(front, [x], p); }
        multiset(Filter(front, p)) + multiset(fx);
        { FilterPermutes(front, u + v, p); }
        multiset(Filter(u + v, p)) + multiset(fx);
        { FilterAppend(u, v, p); }
        multiset(Filter(u, p)) + multiset(fx) + multiset(Filter(v, p));
        { FilterAppend(u, [x], p);
          FilterAppend(u + [x], v, p); }
        multiset(Filter(b, p));
      }
    } else {
      assert |b| == |multiset(b)|;
    }
  }
}

=== FILE: sequential.dfy ===
/** Analysis of a whole table: split it by city, in order of each city's
    first appearance, and analyse each city's rows on their own. */
module Sequential {
  import opened Seqs
  import opened Weather
  import opened Analysis

  function OfCity(c: string): Observation -> bool
  {
    (o: Observation) => o.city == c
  }

  /** The rows of city `c`, in table order. */
  function RowsOf(obs: seq<Observation>, c: string): seq<Observation>
  {
    Filter(obs, OfCity(c))
  }

  /** Some row belongs to city `c`. */
  predicate Appears(obs: seq<Observation>, c: string)
  {
    exists i :: 0 <= i < |obs| && obs[i].city == c
  }

  /** The distinct cities of the table, in order of first appearance. */
  function Cities(obs: seq<Observation>): (cs: seq<string>)
    ensures forall a, b :: 0 <= a < b < |cs| ==> cs[a] != cs[b]
  {
    if |obs| == 0 then []
    else
      var p := Cities(obs[..|obs| - 1]);
      var c := obs[|obs| - 1].city;
      if c in p then p else p + [c]
  }

  /** A city is listed exactly when it appears in the table. */
  lemma {:induction false} CitiesMembership(obs: seq<Observation>, c: string)
    ensures c in Cities(obs) <==> Appears(obs, c)
  {
    if |obs| > 0 {
      var q := obs[..|obs| - 1];
      CitiesMembership(q, c);
      if Appears(q, c) {
        var i :| 0 <= i < |q| && q[i].city == c;
        assert obs[i].city == c;
      }
      if Appears(obs, c) && c != obs[|obs| - 1].city {
        var i :| 0 <= i < |obs| && obs[i].city == c;
        assert q[i].city == c;
      }
    }
  }

  /** Cities are listed in order of first appearance: wherever a later-listed
      city occurs, an earlier-listed one has already occurred. */
  lemma {:induction false} CitiesInFirstAppearanceOrder(obs: seq<Observation>, a: nat, b: nat, i: nat)
    requires a < b < |Cities(obs)|
    requires i < |obs| && obs[i].city == Cities(obs)[b]
    ensures exists k :: 0 <= k < i && obs[k].city == Cities(obs)[a]
  {
    var q := obs[..|obs| - 1];
    var p := Cities(q);
    var cs := Cities(obs);
    assert cs[a] == p[a];
    if b < |p| {
      assert cs[b] == p[b];
      if i < |q| {
        CitiesInFirstAppearanceOrder(q, a, b, i);
        var k :| 0 <= k < i && q[k].city == p[a];
        assert obs[k].city == cs[a];
      } else {
        CitiesMembership(q, p[b]);
        var j :| 0 <= j < |q| && q[j].city == p[b];
        CitiesInFirstAppearanceOrder(q, a, b, j);
        var k :| 0 <= k < j && q[k].city == p[a];
        assert obs[k].city == cs[a];
      }
    } else {
      assert cs[b] == obs[|obs| - 1].city && cs[b] !in p;
      CitiesMembership(q, cs[b]);
      CitiesMembership(q, p[a]);
      var k :| 0 <= k < |q| && q[k].city == p[a];
      assert obs[k].city == cs[a];
    }
  }

  /** A listed city has at least one row. */
  lemma ListedCityHasRows(obs: seq<Observation>, c: string)
    requires c in Cities(obs)
    ensures |RowsOf(obs, c)| > 0
  {
    CitiesMembership(obs, c);
    var i :| 0 <= i < |obs| && obs[i].city == c;
    FilterMembership(obs, OfCity(c), obs[i]);
  }

  /** Every listed city has rows. */
  lemma CitiesHaveRows(obs: seq<Observation>)
    ensures forall c :: c in Cities(obs) ==> |RowsOf(obs, c)| > 0
  {
    forall c | c in Cities(obs)
      ensures |RowsOf(obs, c)| > 0
    {
      ListedCityHasRows(obs, c);
    }
  }

  /** The records of the cities `cs`, one per city in list order, each
      produced by `analyze` from that city's rows in table order. */
  function MapCities(obs: seq<Observation>, cs: seq<string>, analyze: (string, seq<Observation>) --> CityStatistics): (rs: seq<CityStatistics>)
    requires forall c :: c in cs ==> analyze.requires(c, RowsOf(obs, c))
    ensures |rs| == |cs|
  {
    if |cs| == 0 then []
    else [analyze(cs[0], RowsOf(obs, cs[0]))] + MapCities(obs, cs[1..], analyze)
  }

  /** The per-city analysis, defined on every non-empty set of rows. */
  function CityAnalysis(): (string, seq<Observation>) --> CityStatistics
  {
    (c: string, rows: seq<Observation>) requires |rows| > 0 => AnalyzeCity(c, rows)
  }

  /** One statistics record per distinct city, in order of first
      appearance. */
  function SequentialAnalyze(obs: seq<Observation>): (rs: seq<CityStatistics>)
    ensures |rs| == |Cities(obs)|
  {
    CitiesHaveRows(obs);
    MapCities(obs, Cities(obs), CityAnalysis())
  }

  /** The record at position `j` is `analyze` applied to the rows of the
      city listed at `j`. */
  lemma {:induction false} MapCitiesAt(obs: seq<Observation>, cs: seq<string>, analyze: (string, seq<Observation>) --> CityStatistics, j: nat)
    requires forall c :: c in cs ==> analyze.requires(c, RowsOf(obs, c))
    requires j < |cs|
    ensures MapCities(obs, cs, analyze)[j] == analyze(cs[j], RowsOf(obs, cs[j]))
  {
    if j > 0 {
      assert cs[1..][j - 1] == cs[j];
      MapCitiesAt(obs, cs[1..], analyze, j - 1);
    }
  }

  /** The record at position `j` is the analysis of the rows of the city
      listed at `j`, and carries that city's name. */
  lemma SequentialAnalyzeAt(obs: seq<Observation>, j: nat)
    requires j < |Cities(obs)|
    ensures |RowsOf(obs, Cities(obs)[j])| > 0
    ensures SequentialAnalyze(obs)[j] == AnalyzeCity(Cities(obs)[j], RowsOf(obs, Cities(obs)[j]))
    ensures SequentialAnalyze(obs)[j].city == Cities(obs)[j]
  {
    CitiesHaveRows(obs);
    MapCitiesAt(obs, Cities(obs), CityAnalysis(), j);
  }

  /** An empty table gives no results. */
  lemma EmptyTableNoResults()
    ensures SequentialAnalyze([]) == []
  {
  }

  /** The records of a list of cities split where the list does. */
  lemma {:induction false} MapCitiesAppend(obs: seq<Observation>, cs1: seq<string>, cs2: seq<string>, analyze: (string, seq<Observation>) --> CityStatistics)
    requires forall c :: c in cs1 + cs2 ==> analyze.requires(c, RowsOf(obs, c))
    ensures MapCities(obs, cs1 + cs2, analyze) == MapCities(obs, cs1, analyze) + MapCities(obs, cs2, analyze)
  {
    if |cs1| > 0 {
      assert (cs1 + cs2)[1..] == cs1[1..] + cs2;
      MapCitiesAppend(obs, cs1[1..], cs2, analyze);
    } else {
      assert cs1 + cs2 == cs2;
    }
  }

  /** Each city's record depends only on that city's rows: two tables that
      hold the same rows, in the same order, for every city of `cs` give
      those cities the same records. */
  lemma {:induction false} ResultsDependOnlyOnOwnRows(obs1: seq<Observation>, obs2: seq<Observation>, cs: seq<string>, analyze: (string, seq<Observation>) --> CityStatistics)
    requires forall c :: c in cs ==> analyze.requires(c, RowsOf(obs1, c)) && RowsOf(obs1, c) == RowsOf(obs2, c)
    ensures MapCities(obs1, cs, analyze) == MapCities(obs2, cs, analyze)
  {
    if |cs| > 0 {
      ResultsDependOnlyOnOwnRows(obs1, obs2, cs[1..], analyze);
    }
  }

  /** The rows analysed for a city are exactly the table's rows of that
      city. */
  lemma RowsOfExact(obs: seq<Observation>, c: string, o: Observation)
    ensures o in RowsOf(obs, c) <==> o in obs && o.city == c
  {
    FilterMembership(obs, OfCity(c), o);
  }

  /** The cities of two tables with no city in common are those of the
      first followed by those of the second. */
  lemma {:induction false} CitiesOfDisjoint(a: seq<Observation>, b: seq<Observation>)
    requires forall c :: Appears(a, c) ==> !Appears(b, c)
    ensures Cities(a + b) == Cities(a) + Cities(b)
  {
    if |b| == 0 {
      assert a + b == a;
    } else {
      var q := b[..|b| - 1];
      var c := b[|b| - 1].city;
      assert (a + b)[..|a + b| - 1] == a + q;
      forall d | Appears(q, d)
        ensures Appears(b, d)
      {
        var i :| 0 <= i < |q| && q[i].city == d;
        assert b[i].city == d;
      }
      CitiesOfDisjoint(a, q);
      CitiesMembership(a, c);
      assert Appears(b, c);
      CitiesMembership(a + q, c);
      CitiesMembership(q, c);
      if c in Cities(a + q) {
        assert c in Cities(a) || c in Cities(q);
      }
    }
  }

  /** The rows of a city that does not appear in `b` come from `a` alone. */
  lemma RowsOfDisjoint(a: seq<Observation>, b: seq<Observation>, c: string)
    requires !Appears(b, c)
    ensures RowsOf(a + b, c) == RowsOf(a, c)
  {
    FilterAppend(a, b, OfCity(c));
    FilterEmpty(b, OfCity(c));
    assert RowsOf(a, c) + [] == RowsOf(a, c);
  }

  /** The rows of a city that does not appear in `a` come from `b` alone. */
  lemma RowsOfDisjointRight(a: seq<Observation>, b: seq<Observation>, c: string)
    requires !Appears(a, c)
    ensures RowsOf(a + b, c) == RowsOf(b, c)
  {
    FilterAppend(a, b, OfCity(c));
    FilterEmpty(a, OfCity(c));
    assert [] + RowsOf(b, c) == RowsOf(b, c);
  }

  /** Analysing two tables with no city in common together gives the
      records of the first followed by those of the second: the cities are
      analysed independently. */
  lemma SequentialAnalyzeDisjoint(a: seq<Observation>, b: seq<Observation>)
    requires forall c :: Appears(a, c) ==> !Appears(b, c)
    ensures SequentialAnalyze(a + b) == SequentialAnalyze(a) + SequentialAnalyze(b)
  {
    var ca, cb := Cities(a), Cities(b);
    CitiesOfDisjoint(a, b);
    CitiesHaveRows(a);
    CitiesHaveRows(b);
    CitiesHaveRows(a + b);
    forall c | c in ca
      ensures |RowsOf(a, c)| > 0 && RowsOf(a, c) == RowsOf(a + b, c)
    {
      CitiesMembership(a, c);
      RowsOfDisjoint(a, b, c);
    }
    forall c | c in cb
      ensures |RowsOf(b, c)| > 0 && RowsOf(b, c) == RowsOf(a + b, c)
    {
      CitiesMembership(b, c);
      RowsOfDisjointRight(a, b, c);
    }
    MapCitiesAppend(a + b, ca, cb, CityAnalysis());
    ResultsDependOnlyOnOwnRows(a, a + b, ca, CityAnalysis());
    ResultsDependOnlyOnOwnRows(b, a + b, cb, CityAnalysis());
  }
}

=== FILE: stats.dfy ===
/** Exact descriptive statistics over sequences of reals: sums, means,
    extrema, squared deviations and the sample (N-1) variance that pandas
    uses by default, together with the inequalities the analytics rely on. */
module Stats {
  import opened Wrappers
  import opened Seqs

  /** The square of a real. It is defined one recursion step away from
      `x * x`, so the verifier expands it only where a proof asks for it
      (`SqDef`): the sequence-level proofs then stay free of nonlinear
      arithmetic, which is confined to small scalar lemmas. */
  function Sq(x: real): real
  {
    Squared(x, 1)
  }

  function Squared(x: real, delay: nat): real
  {
    if delay == 0 then x * x else Squared(x, delay - 1)
  }

  lemma SqDef(x: real)
    ensures Sq(x) == x * x
  {
    assert Squared(x, 1) == Squared(x, 0);
  }

  lemma SqNonNegative(x: real)
    ensures Sq(x) >= 0.0
  {
    SqDef(x);
  }

  /** Sum of the values, accumulated from the back so that a sequence
      extended by one value unfolds in one step. */
  function Sum(s: seq<real>): real
  {
    if |s| == 0 then 0.0 else Sum(s[..|s| - 1]) + s[|s| - 1]
  }

  /** Arithmetic mean. */
  function Mean(s: seq<real>): real
    requires |s| > 0
  {
    Sum(s) / (|s| as real)
  }

  /** Sum of squared deviations of the values from the centre `c`. */
  function SumSqDev(s: seq<real>, c: real): real
  {
    if |s| == 0 then 0.0 else SumSqDev(s[..|s| - 1], c) + Sq(s[|s| - 1] - c)
  }

  /** Squared deviations never sum to a negative number, and they sum to
      zero only when every value equals the centre. */
  lemma {:induction false} SumSqDevNonNegative(s: seq<real>, c: real)
    ensures SumSqDev(s, c) >= 0.0
    ensures SumSqDev(s, c) == 0.0 ==> forall i :: 0 <= i < |s| ==> s[i] == c
  {
    if |s| > 0 {
      var p := s[..|s| - 1];
      var x := s[|s| - 1];
      SumSqDevNonNegative(p, c);
      SqNonNegative(x - c);
      if SumSqDev(s, c) == 0.0 {
        SqZero(x - c);
        assert forall i :: 0 <= i < |p| ==> p[i] == c;
      }
    }
  }

  lemma SqZero(x: real)
    requires Sq(x) == 0.0
    ensures x == 0.0
  {
    if x > 0.0 {
      SqOfPositive(x);
    } else if x < 0.0 {
      SqOfPositive(-x);
      SqNegate(x);
    }
  }

  lemma SqOfPositive(x: real)
    requires x > 0.0
    ensures Sq(x) != 0.0
  {
    SqDef(x);
    NonZeroProduct(x, x, Sq(x));
  }

  lemma NonZeroProduct(a: real, b: real, t: real)
    requires a > 0.0 && b > 0.0 && t == a * b
    ensures t != 0.0
  {
  }

  /** Sample variance (denominator N - 1), the square of pandas' default
      `std()`; missing (NaN) when there are fewer than two values. */
  function SampleVariance(s: seq<real>): (r: Option<real>)
    ensures r.Some? <==> |s| >= 2
  {
    if |s| < 2 then None else Some(SumSqDev(s, Mean(s)) / ((|s| - 1) as real))
  }

  /** A sample variance, when defined, is not negative. */
  lemma SampleVarianceNonNegative(s: seq<real>)
    requires SampleVariance(s).Some?
    ensures SampleVariance(s).value >= 0.0
  {
    SumSqDevNonNegative(s, Mean(s));
    NonNegativeQuotient(SumSqDev(s, Mean(s)), (|s| - 1) as real);
  }

  lemma NonNegativeQuotient(a: real, b: real)
    requires a >= 0.0 && b > 0.0
    ensures a / b >= 0.0
  {
  }

  function Min(s: seq<real>): (r: real)
    requires |s| > 0
    ensures forall i :: 0 <= i < |s| ==> r <= s[i]
  {
    if |s| == 1 then s[0]
    else
      var m := Min(s[..|s| - 1]);
      if s[|s| - 1] < m then s[|s| - 1] else m
  }

  function Max(s: seq<real>): (r: real)
    requires |s| > 0
    ensures forall i :: 0 <= i < |s| ==> s[i] <= r
  {
    if |s| == 1 then s[0]
    else
      var m := Max(s[..|s| - 1]);
      if s[|s| - 1] > m then s[|s| - 1] else m
  }

  /** The extrema are values of the sequence. */
  lemma {:induction false} ExtremaAttained(s: seq<real>)
    requires |s| > 0
    ensures Min(s) in s && Max(s) in s
  {
    if |s| > 1 {
      var p := s[..|s| - 1];
      ExtremaAttained(p);
      assert Min(p) in s && Max(p) in s;
    }
  }

  /** The extrema depend only on which values occur, not on their order or
      multiplicity. */
  lemma ExtremaOfSameValues(a: seq<real>, b: seq<real>)
    requires |a| > 0 && |b| > 0
    requires forall x :: x in a <==> x in b
    ensures Min(a) == Min(b) && Max(a) == Max(b)
  {
    ExtremaAttained(a);
    ExtremaAttained(b);
    var i :| 0 <= i < |b| && b[i] == Min(a);
    var j :| 0 <= j < |a| && a[j] == Min(b);
    var k :| 0 <= k < |b| && b[k] == Max(a);
    var l :| 0 <= l < |a| && a[l] == Max(b);
  }

  /** Summing from the front. */
  lemma {:induction false} SumFront(x: real, s: seq<real>)
    ensures Sum([x] + s) == x + Sum(s)
  {
    if |s| > 0 {
      var t := [x] + s;
      assert t[..|t| - 1] == [x] + s[..|s| - 1];
      SumFront(x, s[..|s| - 1]);
    } else {
      assert [x] + s == [x];
      assert [x][..0] == [];
    }
  }

  lemma MulLeft(a: real, x: real, y: real)
    requires a >= 0.0 && x <= y
    ensures a * x <= a * y
  {
  }

  /** One inductive step of `SumBounds`, kept apart from the sequence facts. */
  lemma ScaledBoundStep(k: real, lo: real, plo: real, sp: real, a: real, n: real, t: real)
    requires k >= 0.0 && lo <= plo && lo <= a && k * plo <= sp && n == k + 1.0 && t == sp + a
    ensures n * lo <= t
  {
    MulLeft(k, lo, plo);
  }

  lemma ScaledBoundStepUpper(k: real, hi: real, phi: real, sp: real, a: real, n: real, t: real)
    requires k >= 0.0 && phi <= hi && a <= hi && sp <= k * phi && n == k + 1.0 && t == sp + a
    ensures t <= n * hi
  {
    MulLeft(k, phi, hi);
  }

  /** The sum is at least N times the minimum. */
  lemma {:induction false} SumAtLeast(s: seq<real>)
    requires |s| > 0
    ensures (|s| as real) * Min(s) <= Sum(s)
  {
    if |s| == 1 {
      assert Sum(s) == Sum(s[..0]) + s[0];
      assert Min(s) == s[0];
    } else {
      var p := s[..|s| - 1];
      SumAtLeast(p);
      ScaledBoundStep(|p| as real, Min(s), Min(p), Sum(p), s[|s| - 1], |s| as real, Sum(s));
    }
  }

  /** The sum is at most N times the maximum. */
  lemma {:induction false} SumAtMost(s: seq<real>)
    requires |s| > 0
    ensures Sum(s) <= (|s| as real) * Max(s)
  {
    if |s| == 1 {
      assert Sum(s) == Sum(s[..0]) + s[0];
      assert Max(s) == s[0];
    } else {
      var p := s[..|s| - 1];
      SumAtMost(p);
      ScaledBoundStepUpper(|p| as real, Max(s), Max(p), Sum(p), s[|s| - 1], |s| as real, Sum(s));
    }
  }

  /** The mean never leaves the range of the values. */
  lemma MeanWithinRange(s: seq<real>)
    requires |s| > 0
    ensures Min(s) <= Mean(s) <= Max(s)
  {
    SumAtLeast(s);
    SumAtMost(s);
    DivideBounds(|s| as real, Min(s), Sum(s), Max(s));
  }

  lemma DivideBounds(n: real, lo: real, t: real, hi: real)
    requires n > 0.0 && n * lo <= t <= n * hi
    ensures lo <= t / n <= hi
  {
    var q := t / n;
    assert n * q == t;
    if q < lo {
      MulLeft(n, q, lo);
    }
    if q > hi {
      MulLeft(n, hi, q);
    }
  }

  /** Sum of the deviations of the values from the centre `c`. */
  function SumDev(s: seq<real>, c: real): real
  {
    if |s| == 0 then 0.0 else SumDev(s[..|s| - 1], c) + (s[|s| - 1] - c)
  }

  /** The summed deviation is the sum less N copies of the centre. */
  lemma {:induction false} SumDevClosedForm(s: seq<real>, c: real)
    ensures SumDev(s, c) == Sum(s) - (|s| as real) * c
  {
    if |s| > 0 {
      var p := s[..|s| - 1];
      SumDevClosedForm(p, c);
      AddOneCopy(|p| as real, |s| as real, c);
    }
  }

  lemma AddOneCopy(k: real, n: real, c: real)
    requires n == k + 1.0
    ensures n * c == k * c + c
  {
  }

  /** Deviations from the mean sum to zero. */
  lemma DeviationsFromMeanCancel(s: seq<real>)
    requires |s| > 0
    ensures SumDev(s, Mean(s)) == 0.0
  {
    SumDevClosedForm(s, Mean(s));
    MulDiv(Sum(s), |s| as real);
  }

  lemma MulDiv(t: real, n: real)
    requires n > 0.0
    ensures n * (t / n) == t
  {
  }

  /** Moving the centre from `c` to `d` changes the squared deviations by a
      closed-form amount (the parallel-axis identity). */
  lemma {:induction false} ShiftCentre(s: seq<real>, c: real, d: real)
    ensures SumSqDev(s, d) == SumSqDev(s, c) - 2.0 * (d - c) * SumDev(s, c) + (|s| as real) * Sq(d - c)
  {
    if |s| > 0 {
      var p := s[..|s| - 1];
      var a := s[|s| - 1];
      ShiftCentre(p, c, d);
      ShiftStep(SumSqDev(p, c), SumSqDev(p, d), SumDev(p, c), |p| as real, a, c, d,
                SumSqDev(s, c), SumSqDev(s, d), SumDev(s, c), |s| as real);
    }
  }

  /** The arithmetic of one inductive step of `ShiftCentre`: lower-case
      names describe the prefix, upper-case ones the prefix extended by `a`. */
  lemma ShiftStep(q: real, q': real, dv: real, k: real, a: real, c: real, d: real,
                  Q: real, Q': real, DV: real, n: real)
    requires q' == q - 2.0 * (d - c) * dv + k * Sq(d - c)
    requires Q == q + Sq(a - c) && Q' == q' + Sq(a - d) && DV == dv + (a - c) && n == k + 1.0
    ensures Q' == Q - 2.0 * (d - c) * DV + n * Sq(d - c)
  {
    SqDef(d - c);
    SqDef(a - c);
    SqDef(a - d);
  }

  /** Cauchy-Schwarz for deviations: N times the squared deviations bound
      the square of the summed deviation. */
  lemma {:induction false} DeviationCauchySchwarz(s: seq<real>, c: real)
    ensures (|s| as real) * SumSqDev(s, c) >= Sq(SumDev(s, c))
  {
    if |s| > 0 {
      var p := s[..|s| - 1];
      var a := s[|s| - 1];
      assert SumSqDev(s, c) == SumSqDev(p, c) + Sq(a - c);
      assert SumDev(s, c) == SumDev(p, c) + (a - c);
      DeviationCauchySchwarz(p, c);
      ShiftCentre(p, c, a);
      SumSqDevNonNegative(p, a);
      CauchySchwarzStep(SumSqDev(p, c), SumSqDev(p, a), SumDev(p, c), |p| as real, a - c,
                        SumSqDev(s, c), SumDev(s, c), |s| as real);
    } else {
      SqDef(0.0);
    }
  }

  /** The arithmetic of one inductive step of `DeviationCauchySchwarz`: the
      gap grows by `qa`, the squared deviations of the prefix from the new
      value, which is never negative. */
  lemma CauchySchwarzStep(q: real, qa: real, dv: real, k: real, e: real,
                          Q: real, DV: real, n: real)
    requires k * q >= Sq(dv)
    requires qa >= 0.0
    requires qa == q - 2.0 * e * dv + k * Sq(e)
    requires Q == q + Sq(e) && DV == dv + e && n == k + 1.0
    ensures n * Q >= Sq(DV)
  {
    SqDef(e);
    SqDef(dv);
    SqDef(dv + e);
    CauchySchwarzIdentity(q, k, dv, e);
    assert k * Sq(e) == k * (e * e);
    assert n * Q == (k + 1.0) * (q + e * e);
    assert Sq(DV) == (dv + e) * (dv + e);
    assert n * Q - Sq(DV) == (k * q - Sq(dv)) + qa;
  }

  lemma CauchySchwarzIdentity(q: real, k: real, dv: real, e: real)
    ensures (k + 1.0) * (q + e * e) - (dv + e) * (dv + e)
         == (k * q - dv * dv) + (q - 2.0 * e * dv + k * (e * e))
  {
    assert (k + 1.0) * (q + e * e) == k * q + k * (e * e) + q + e * e;
    assert (dv + e) * (dv + e) == dv * dv + 2.0 * e * dv + e * e;
  }

  lemma SqNegate(x: real)
    ensures Sq(-x) == Sq(x)
  {
    SqDef(x);
    SqDef(-x);
  }

  /** Samuelson's inequality for the last value of a sample: its squared
      deviation from the sample mean, times N, is at most (N - 1) times the
      sum of squared deviations. */
  lemma LastDeviationBound(w: seq<real>)
    requires |w| >= 2
    ensures (|w| as real) * Sq(w[|w| - 1] - Mean(w)) <= ((|w| - 1) as real) * SumSqDev(w, Mean(w))
  {
    var p := w[..|w| - 1];
    var x := w[|w| - 1];
    var m := Mean(w);
    DeviationsFromMeanCancel(w);
    assert SumDev(p, m) == m - x;
    DeviationCauchySchwarz(p, m);
    SqNegate(x - m);
    SamuelsonStep((|w| - 1) as real, |w| as real, SumSqDev(p, m), Sq(x - m), SumSqDev(w, m));
  }

  lemma SamuelsonStep(k: real, n: real, a: real, b: real, t: real)
    requires n == k + 1.0 && k * a >= b && t == a + b
    ensures n * b <= k * t
  {
  }

  /** In a sample of at most five values the last value lies within two
      sample standard deviations of the mean; a single value has missing
      deviation, read as 0. */
  lemma SmallSampleWithinTwoDeviations(w: seq<real>)
    requires 1 <= |w| <= 5
    ensures Sq(w[|w| - 1] - Mean(w)) <= 4.0 * SampleVariance(w).GetOr(0.0)
  {
    var x := w[|w| - 1];
    var m := Mean(w);
    if |w| == 1 {
      assert Sum(w) == Sum(w[..0]) + x;
      assert m == x;
      SqDef(x - m);
    } else {
      LastDeviationBound(w);
      SumSqDevNonNegative(w, m);
      WithinTwoDeviations(|w|, Sq(x - m), SumSqDev(w, m));
    }
  }

  /** The scalar core of `SmallSampleWithinTwoDeviations`: from Samuelson's
      bound and 2 <= N <= 5, the squared deviation is at most four times the
      sample variance. */
  lemma WithinTwoDeviations(n: nat, dev: real, ss: real)
    requires 2 <= n <= 5 && ss >= 0.0
    requires (n as real) * dev <= ((n - 1) as real) * ss
    ensures dev <= 4.0 * (ss / ((n - 1) as real))
  {
    if n == 2 {
      assert 2.0 * dev <= ss;
    } else if n == 3 {
      assert 3.0 * dev <= 2.0 * ss;
      assert ss / 2.0 * 2.0 == ss;
    } else if n == 4 {
      assert 4.0 * dev <= 3.0 * ss;
      assert ss / 3.0 * 3.0 == ss;
    } else {
      assert 5.0 * dev <= 4.0 * ss;
      assert ss / 4.0 * 4.0 == ss;
    }
  }

  /** The sum of a constant sequence. */
  lemma {:induction false} SumConstant(s: seq<real>, c: real)
    requires forall i :: 0 <= i < |s| ==> s[i] == c
    ensures Sum(s) == (|s| as real) * c
  {
    if |s| > 0 {
      SumConstant(s[..|s| - 1], c);
    }
  }

  /** The squared deviations of a constant sequence. */
  lemma {:induction false} SumSqDevConstant(s: seq<real>, v: real, c: real)
    requires forall i :: 0 <= i < |s| ==> s[i] == v
    ensures SumSqDev(s, c) == (|s| as real) * Sq(v - c)
  {
    if |s| > 0 {
      SumSqDevConstant(s[..|s| - 1], v, c);
    }
  }

  /** The mean of a constant sequence is that constant. */
  lemma MeanConstant(s: seq<real>, c: real)
    requires |s| > 0
    requires forall i :: 0 <= i < |s| ==> s[i] == c
    ensures Mean(s) == c
  {
    SumConstant(s, c);
  }

  function Abs(x: real): real
  {
    if x < 0.0 then -x else x
  }

  /** Comparing a deviation with twice a standard deviation is the same as
      comparing their squares, for any standard deviation `sd` (which is
      never negative) whose square is the variance `v`. This is why the
      model keeps variances and never takes a square root. */
  lemma DeviationBySquares(d: real, sd: real, v: real)
    requires sd >= 0.0 && Sq(sd) == v
    ensures Abs(d) > 2.0 * sd <==> Sq(d) > 4.0 * v
    ensures Abs(d) <= 2.0 * sd <==> Sq(d) <= 4.0 * v
  {
    var a := Abs(d);
    var b := 2.0 * sd;
    SqDef(d);
    SqDef(sd);
    assert a * a == d * d;
    assert b * b == 4.0 * v;
    if a > b {
      StrictSquares(a, b);
    } else {
      MulLeft(a, a, b);
      MulLeft(b, a, b);
    }
  }

  lemma StrictSquares(a: real, b: real)
    requires a > b >= 0.0
    ensures a * a > b * b
  {
    assert a * a - b * b == (a - b) * (a + b);
    PositiveProduct(a - b, a + b);
  }

  lemma PositiveProduct(a: real, b: real)
    requires a > 0.0 && b > 0.0
    ensures a * b > 0.0
  {
  }

  /** Sum of `f` over the elements, accumulated from the back like `Sum`. */
  function SumOf<T>(s: seq<T>, f: T -> real): real
  {
    if |s| == 0 then 0.0 else SumOf(s[..|s| - 1], f) + f(s[|s| - 1])
  }

  /** A sum over a concatenation is the sum of the two parts. */
  lemma {:induction false} SumOfAppend<T>(u: seq<T>, v: seq<T>, f: T -> real)
    ensures SumOf(u + v, f) == SumOf(u, f) + SumOf(v, f)
  {
    if |v| > 0 {
      var w := v[..|v| - 1];
      assert (u + v)[..|u + v| - 1] == u + w;
      assert (u + v)[|u + v| - 1] == v[|v| - 1];
      SumOfAppend(u, w, f);
    } else {
      assert u + v == u;
    }
  }

  /** A sum does not depend on the order of the summed elements. */
  lemma {:induction false} SumOfPermutation<T>(a: seq<T>, b: seq<T>, f: T -> real)
    requires multiset(a) == multiset(b)
    ensures SumOf(a, f) == SumOf(b, f)
    decreases |a|
  {
    if |a| > 0 {
      var x := a[|a| - 1];
      var p := a[..|a| - 1];
      assert a == p + [x];
      assert x in multiset(b);
      var k :| 0 <= k < |b| && b[k] == x;
      var u, v := b[..k], b[k + 1..];
      assert b == u + [x] + v;
      RemoveMatched(a, b, x, p, u, v);
      SumOfPermutation(p, u + v, f);
      SumOfAppend(u, [x], f);
      SumOfAppend(u + [x], v, f);
      SumOfAppend(u, v, f);
      assert SumOf([x], f) == f(x) by {
        assert [x][..0] == [];
      }
    } else {
      assert |b| == |multiset(b)|;
    }
  }
}

=== FILE: timesort.dfy ===
/** Ordering a city's observations by timestamp, the first step of the
    per-city analysis. */
module TimeSort {
  import opened Weather

  /** No observation of `s` is earlier than `t`. */
  predicate NotBefore(t: int, s: seq<Observation>)
  {
    forall k :: 0 <= k < |s| ==> t <= s[k].timestamp
  }

  /** Prefixing an observation that is not later than anything in a
      sorted sequence keeps it sorted. */
  lemma ConsSorted(x: Observation, rest: seq<Observation>)
    requires SortedByTime(rest) && NotBefore(x.timestamp, rest)
    ensures SortedByTime([x] + rest)
  {
    var r := [x] + rest;
    forall i, j | 0 <= i < j < |r|
      ensures r[i].timestamp <= r[j].timestamp
    {
      if i > 0 {
        assert r[i] == rest[i - 1] && r[j] == rest[j - 1];
      } else {
        assert r[j] == rest[j - 1];
      }
    }
  }

  /** Inserts `o` into a timestamp-ordered sequence, after every
      observation whose timestamp is not later than its own. */
  function Insert(o: Observation, s: seq<Observation>): (r: seq<Observation>)
    requires SortedByTime(s)
    ensures |r| == |s| + 1
    ensures SortedByTime(r)
    ensures r[0] == o || (|s| > 0 && r[0] == s[0])
  {
    if |s| == 0 then [o]
    else if o.timestamp < s[0].timestamp then
      ConsSorted(o, s);
      [o] + s
    else
      var rest := Insert(o, s[1..]);
      InsertAfterHead(o, s, rest);
      [s[0]] + rest
  }

  /** The proof obligation of `Insert`'s third case: the new head is not
      later than the head of the rest, which is `o` or the old second
      observation. */
  lemma InsertAfterHead(o: Observation, s: seq<Observation>, rest: seq<Observation>)
    requires |s| > 0 && SortedByTime(s) && s[0].timestamp <= o.timestamp
    requires |rest| > 0 && SortedByTime(rest)
    requires rest[0] == o || (|s| > 1 && rest[0] == s[1])
    ensures SortedByTime([s[0]] + rest)
  {
    assert NotBefore(s[0].timestamp, rest);
    ConsSorted(s[0], rest);
  }

  /** Insertion adds `o` and keeps every other observation. */
  lemma {:induction false} InsertPermutes(o: Observation, s: seq<Observation>)
    requires SortedByTime(s)
    ensures multiset(Insert(o, s)) == multiset(s) + multiset{o}
  {
    if |s| > 0 && o.timestamp >= s[0].timestamp {
      InsertPermutes(o, s[1..]);
      assert s == [s[0]] + s[1..];
    }
  }

  /** Orders observations by timestamp, so that timestamps never
      decrease; `SortByTimePermutes` shows the result is a permutation of
      the input. */
  function SortByTime(s: seq<Observation>): (r: seq<Observation>)
    ensures |r| == |s|
    ensures SortedByTime(r)
  {
    if |s| == 0 then []
    else Insert(s[|s| - 1], SortByTime(s[..|s| - 1]))
  }

  /** Sorting keeps exactly the observations it is given. */
  lemma {:induction false} SortByTimePermutes(s: seq<Observation>)
    ensures multiset(SortByTime(s)) == multiset(s)
  {
    if |s| > 0 {
      var p := s[..|s| - 1];
      var x := s[|s| - 1];
      var q := SortByTime(p);
      calc {
        multiset(SortByTime(s));
        multiset(Insert(x, q));
        { InsertPermutes(x, q); }
        multiset(q) + multiset{x};
        { SortByTimePermutes(p); }
        multiset(p) + multiset{x};
        { assert s == p + [x]; }
        multiset(s);
      }
    }
  }

  /** Observations picked at increasing positions of a sorted sequence
      come in time order. */
  lemma PositionsInTimeOrder(s: seq<Observation>, idx: seq<nat>)
    requires SortedByTime(s)
    requires forall j :: 0 <= j < |idx| ==> idx[j] < |s|
    requires forall j, k :: 0 <= j < k < |idx| ==> idx[j] < idx[k]
    ensures forall j, k :: 0 <= j < k < |idx| ==> s[idx[j]].timestamp <= s[idx[k]].timestamp
  {
  }

  /** Dropping the first observation keeps a sequence sorted. */
  lemma SortedTail(s: seq<Observation>)
    requires |s| > 0 && SortedByTime(s)
    ensures SortedByTime(s[1..])
  {
    var rest := s[1..];
    forall i, j | 0 <= i < j < |rest|
      ensures rest[i].timestamp <= rest[j].timestamp
    {
      assert rest[i] == s[i + 1] && rest[j] == s[j + 1];
    }
  }

  /** An observation not earlier than any in a sorted sequence goes last. */
  lemma {:induction false} InsertLast(o: Observation, s: seq<Observation>)
    requires SortedByTime(s)
    requires forall k :: 0 <= k < |s| ==> s[k].timestamp <= o.timestamp
    ensures Insert(o, s) == s + [o]
  {
    if |s| > 0 {
      var rest := s[1..];
      SortedTail(s);
      forall k | 0 <= k < |rest|
        ensures rest[k].timestamp <= o.timestamp
      {
        assert rest[k] == s[k + 1];
      }
      InsertLast(o, rest);
      calc {
        Insert(o, s);
        { assert s[0].timestamp <= o.timestamp; }
        [s[0]] + Insert(o, rest);
        [s[0]] + (rest + [o]);
        { assert [s[0]] + rest == s; }
        s + [o];
      }
    }
  }

  /** Sorting leaves an already time-ordered sequence unchanged; in
      particular sorting twice is sorting once. */
  lemma {:induction false} SortSortedIsIdentity(s: seq<Observation>)
    requires SortedByTime(s)
    ensures SortByTime(s) == s
  {
    if |s| > 0 {
      var p := s[..|s| - 1];
      SortSortedIsIdentity(p);
      InsertLast(s[|s| - 1], p);
      assert p + [s[|s| - 1]] == s;
    }
  }
}

=== FILE: weather.dfy ===
/** The records the analytics consume and produce: one observation per row
    of the historical table, and one statistics record per city. */
module Weather {
  import opened Wrappers

  /** The four meteorological seasons used as labels in the table. */
  datatype Season = Winter | Spring | Summer | Autumn

  /** Position of the season's label in alphabetical order
      ("autumn" < "spring" < "summer" < "winter"): the order in which a
      group-by over the label emits its groups. */
  function LabelRank(s: Season): nat
  {
    match s
    case Autumn => 0
    case Spring => 1
    case Summer => 2
    case Winter => 3
  }

  /** One row of the historical table. The timestamp is in seconds. */
  datatype Observation = Observation(city: string, timestamp: int, temperature: real, season: Season)

  /** A flagged observation, reduced to its (timestamp, temperature) pair. */
  datatype Anomaly = Anomaly(timestamp: int, temperature: real)

  /** One row of a seasonal profile. `variance` is the square of the
      season's sample standard deviation, and is missing (NaN) when the
      season has a single observation. */
  datatype ProfileRow = ProfileRow(season: Season, mean: real, variance: Option<real>)

  datatype Trend = Positive | Negative

  /** The statistics record produced for one city. */
  datatype CityStatistics = CityStatistics(
    city: string,
    anomalies: seq<Anomaly>,
    seasonalProfile: seq<ProfileRow>,
    trend: Trend,
    averageTemp: real,
    minTemp: real,
    maxTemp: real)

  /** The temperature column. */
  function Temperatures(obs: seq<Observation>): (t: seq<real>)
    ensures |t| == |obs|
    ensures forall i :: 0 <= i < |obs| ==> t[i] == obs[i].temperature
  {
    seq(|obs|, i requires 0 <= i < |obs| => obs[i].temperature)
  }

  /** The (timestamp, temperature) pair of an observation. */
  function AsAnomaly(o: Observation): Anomaly
  {
    Anomaly(o.timestamp, o.temperature)
  }

  predicate SortedByTime(obs: seq<Observation>)
  {
    forall i, j :: 0 <= i < j < |obs| ==> obs[i].timestamp <= obs[j].timestamp
  }
}

=== FILE: wrappers.dfy ===
/** A value that may be missing: stands for pandas' NaN where the analytics
    can produce one (the standard deviation of a single value). */
module Wrappers {

  datatype Option<+T> = None | Some(value: T) {

    /** The value, or `default` when missing (pandas' `fillna(default)`). */
    function GetOr(default: T): T {
      match this
      case Some(v) => v
      case None => default
    }
  }
}
